=== FILE: README.md ===
# MetroMachine sequencer core in Dafny

This project models the sequencer core of MetroMachine, a browser drum machine and metronome. The model has five modules:

- **BeatCalculus** (`beat_calculus.dfy`) covers the beat-position calculus:
  - a 0-based step ↔ a 1-based `(beat, sub-beat)` position;
  - the position-preserving step conversion used when the subdivision changes;
  - the `"beat.sub"` text form of a key and the order in which those keys sort.
- **PatternStore** (`pattern_store.dfy`) covers the drum pattern (drum → position → `{enabled, accent}`):
  - the copy-on-write cell toggles;
  - the group accent toggles over the drum roster;
  - building a pattern empty or from a preset;
  - exporting a pattern back to the preset's sparse, sorted lists.
- **DrumMachine** (`drum_machine.dfy`) covers the user-facing state (`useDrumMachine`):
  - loading a preset by id;
  - the four editing intents, each addressed to the main or the fill pattern.
- **AudioEngine** (`audio_engine.dfy`) covers the transport (`useAudioEngine`):
  - the step and measure counters walked by the loop tick, including the count-in measure 0;
  - the fill-on-last-measure choice and trigger volumes;
  - `createLoop` with its re-entrancy guard;
  - start, start-without-count-in, stop and pause;
  - the React effects that clamp the measure counter and rebuild the loop.
- **DrumGrid** (`drum_grid.dfy`) covers the grid view's predicates:
  - the column keys and the current-step highlight;
  - the header accent indicators, the header beat labels and what a header click dispatches.

Keys are modelled as `Pos(beat, sub)` pairs. The source keeps them as strings `"b.s"`. `KeyText`/`ParseKey` give the text form, and `KeyOrderAgrees` shows that string order and pair order agree on the single-digit keys the grid produces.

A tick returns the events it would cause instead of playing sound:
- `Click` is the count-in click;
- `Trigger(drum, accent, volume)` is a drum hit;
- `Position(beat, measure, subBeat)` is the position callback.

`createLoop` is split at its `await` into two operations:
- `BeginCreateLoop` is the synchronous part: it takes the guard, disposes the loop and sets the counters.
- `CompleteCreateLoop` is what runs after the settle delay: it creates the loop and releases the guard in `finally`.

`CreateLoop` is the two run back to back. Effects that React runs after a state change are explicit operations (`PlaybackInputsEffect`, `Settle`, `ClampMeasure`, `MeasuresChanged`, `StructureChanged`).

Two behaviours of the code worth stating plainly:
- `stop` does not call the position callback. It resets only the engine's own displayed beat, measure and sub-beat.
- The position-preserving conversion (useAudioEngine.ts:232-236) keeps the 0-based sub-beat, capped by the new subdivision. Fed the true previous subdivision, 2 → 4 sub-beats at beat 2, sub-beat 2 (step 3) gives step 5, position (2, 2) (`RebuildStep(3, 2, 4)`). As the code runs, the conversion is fed the new subdivision and keeps step 3, which reads as beat 1, sub-beat 4; see "## Findings".

## Model

| member | source | states |
|---|---|---|
| BeatCalculus.StepToPosition | src/hooks/useAudioEngine.ts:144-148 | every step maps to a valid position: beat ≥ 1 and 1 ≤ sub ≤ subdivision |
| BeatCalculus.StepToPositionInverse | src/hooks/useAudioEngine.ts:144-148 | `(beat-1)*subdivision + (sub-1)` of the computed position is the step again |
| BeatCalculus.PositionRoundTrip | src/hooks/useAudioEngine.ts:144-148 | every valid position is the image of exactly the step PositionToStep names |
| BeatCalculus.StepToPositionInjective | src/hooks/useAudioEngine.ts:144-148 | distinct steps give distinct positions |
| BeatCalculus.InGridIffStepBelow | src/hooks/useDrumMachine.ts:30-35 | a valid position has beat ≤ beatsPerMeasure exactly when its step is below beatsPerMeasure*subdivision |
| BeatCalculus.StepInMeasure | src/hooks/useAudioEngine.ts:313-316 | a step is inside the measure (step < beats*subdivision) iff its position is a grid column |
| BeatCalculus.GridKeysSize | src/hooks/useDrumMachine.ts:29-40 | one drum's grid has exactly beatsPerMeasure*subdivision keys |
| BeatCalculus.RebuildStep | src/hooks/useAudioEngine.ts:230-236 | the converted step keeps the beat and has sub-beat min(old sub-beat, new subdivision) |
| BeatCalculus.RebuildStaysInMeasure | src/hooks/useAudioEngine.ts:230-236 | a step inside the old measure converts to a step inside the new measure |
| BeatCalculus.RebuildSameSubdivision | src/hooks/useAudioEngine.ts:230-236 | with equal old and new subdivision the conversion is the identity |
| BeatCalculus.KeyText | src/hooks/useDrumMachine.ts:33 | a single-digit key renders as digit, '.', digit |
| BeatCalculus.ParseKey | src/hooks/useDrumMachine.ts:59-61 | a text is read as a key exactly when it is digit '.' digit, giving single-digit fields |
| BeatCalculus.KeyTextRoundTrip | src/hooks/useDrumMachine.ts:59-61 | parsing a rendered key gives the position back |
| BeatCalculus.ParseKeyRoundTrip | src/hooks/useDrumMachine.ts:59-61 | rendering a parsed key gives the text back |
| BeatCalculus.KeyOrderAgrees | src/hooks/useDrumMachine.ts:19 | on single-digit keys the JavaScript string order of keys is the (beat, sub) order |
| PatternStore.CellAt | src/components/DrumGrid.tsx:103-107 | the stored cell, or one neither enabled nor accented when drum or position is missing |
| PatternStore.WithCell | src/hooks/useDrumMachine.ts:125-137 | the drum entry and the cell are created if missing, the stored cell is the new one, and every other drum and cell is kept |
| PatternStore.WithCellElsewhere | src/hooks/useDrumMachine.ts:125-137 | storing one cell changes neither the presence nor the contents of any other (drum, position) |
| PatternStore.ToggleDrum | src/hooks/useDrumMachine.ts:122-154 | the cell exists afterwards, `enabled` is flipped, `accent` kept, drum set grows by at most d, nothing else changes |
| PatternStore.ToggleAccent | src/hooks/useDrumMachine.ts:156-189 | the cell exists afterwards, `accent` is flipped, `enabled` kept, nothing else changes |
| PatternStore.ToggleDrumTwice | src/hooks/useDrumMachine.ts:122-154 | two toggles show the same pattern; if the cell existed the pattern is identical |
| PatternStore.ToggleAccentTwice | src/hooks/useDrumMachine.ts:156-189 | two toggles show the same pattern; if the cell existed the pattern is identical |
| PatternStore.AnyAccented | src/hooks/useDrumMachine.ts:198-200 | true exactly when some roster drum's cell at k is accented; when false, no stored roster cell at k carries an accent (missing cells count as unaccented) |
| PatternStore.SetAccents | src/hooks/useDrumMachine.ts:240-254 | every roster drum has a cell at k with its `enabled` kept and accent v; all other cells and drums untouched |
| PatternStore.ToggleColumnAccent | src/hooks/useDrumMachine.ts:229-270 | every roster drum's accent at k becomes "no roster drum was accented at k"; `enabled` and all other keys untouched |
| PatternStore.ToggleBeatAccent | src/hooks/useDrumMachine.ts:191-227 | the group toggle acts on the roster drums at `b.1` only, creating their cells there: other keys, drums outside the roster and every `enabled` flag are untouched |
| PatternStore.ColumnToggleMakesUniform | src/hooks/useDrumMachine.ts:234-254 | after the group toggle all roster accents at k agree |
| PatternStore.ColumnToggleTwice | src/hooks/useDrumMachine.ts:229-270 | with a non-empty roster two group toggles set every accent to whether any was accented before |
| PatternStore.ColumnToggleTwiceRestoresIffUniform | src/hooks/useDrumMachine.ts:229-270 | two group toggles restore the column exactly when its accents were uniform |
| PatternStore.EmptyRowUpTo | src/hooks/useDrumMachine.ts:31-39 | the row built by the nested loops holds exactly the positions of the first n steps, all default cells |
| PatternStore.EmptyRow | src/hooks/useDrumMachine.ts:29-40 | one drum's empty row has exactly the grid keys, all default |
| PatternStore.CreateEmptyPattern | src/hooks/useDrumMachine.ts:26-43 | exactly the roster drums, each with exactly the grid keys, all default |
| PatternStore.EnableListed | src/hooks/useDrumMachine.ts:55-66 | same keys; a listed key becomes enabled with the preset's accent rule (sub-beat 1 of an accented beat), every other cell is kept |
| PatternStore.CreatePatternFromPreset | src/hooks/useDrumMachine.ts:45-70 | roster drums × grid keys; enabled iff listed for that drum; accented iff enabled, on sub-beat 1, and the beat is in the preset's accents |
| PatternStore.SortKeys | src/hooks/useDrumMachine.ts:19 | the same keys, as many, strictly increasing |
| PatternStore.ConvertPatternToPresetFormat | src/hooks/useDrumMachine.ts:6-24 | a drum is exported iff it has an enabled cell; its list holds exactly its enabled keys, strictly sorted |
| PatternStore.PresetRoundTrip | src/hooks/useDrumMachine.ts:45-70 | exporting a pattern built from a preset gives, per roster drum, exactly its listed positions inside the grid |
| DrumMachine.WithSelected | src/hooks/useDrumMachine.ts:150-153 | the addressed pattern is replaced; the other pattern and all other fields are kept |
| DrumMachine.ToggleDrumIn | src/hooks/useDrumMachine.ts:122-154 | flips `enabled` in the addressed pattern only; the other pattern and state fields are kept |
| DrumMachine.ToggleAccentIn | src/hooks/useDrumMachine.ts:156-189 | flips `accent` in the addressed pattern only |
| DrumMachine.ToggleColumnAccentIn | src/hooks/useDrumMachine.ts:229-270 | group toggle in the addressed pattern only: every roster accent at k becomes "none was accented", no `enabled` flag changes, cells of other keys and of non-roster drums are kept |
| DrumMachine.ToggleBeatAccentIn | src/hooks/useDrumMachine.ts:191-227 | group toggle of the roster drums at `b.1` in the addressed pattern only, their cells created there; every other key and every non-roster drum unchanged, and no `enabled` flag changes, `b.1` included |
| DrumMachine.FindPreset | src/hooks/useDrumMachine.ts:104 | None iff no preset has the id; otherwise the first preset with that id |
| DrumMachine.LoadPreset | src/hooks/useDrumMachine.ts:103-120 | an unknown id changes nothing; otherwise meter, measures, id and both patterns come from the preset and bpm and every other field are kept |
| DrumMachine.LoadPresetSizesPatterns | src/hooks/useDrumMachine.ts:103-120 | after a load both patterns hold exactly the roster, each with exactly the new grid's keys |
| DrumMachine.PresenceKeepsSize | src/hooks/useDrumMachine.ts:240-254 | edits that only add roster cells at a grid key keep a pattern sized to its grid |
| DrumMachine.TogglesKeepSize | src/hooks/useDrumMachine.ts:122-270 | the drum, accent and group toggles at a grid key keep a sized pattern sized |
| AudioEngine.DrumOffset | src/hooks/useAudioEngine.ts:163-212 | −10 dB exactly for the two hi-hats, −5 dB exactly for the ride, 0 for every other drum |
| AudioEngine.TriggerVolume | src/hooks/useAudioEngine.ts:160 | an accent plays at the drum's offset, a plain hit the reduction lower; never above 0 dB for a non-negative reduction |
| AudioEngine.AccentLouderByReduction | src/hooks/useAudioEngine.ts:160 | accented minus plain volume of a drum is exactly the reduction |
| AudioEngine.Preview | src/hooks/useAudioEngine.ts:158-160 | auditioning triggers the drum unaccented at the plain volume |
| AudioEngine.StepDuration | src/hooks/useAudioEngine.ts:258 | the interval is a triplet exactly for subdivision 3 |
| AudioEngine.StepDurationIsOneSubBeat | src/hooks/useAudioEngine.ts:255-258 | for every subdivision ≥ 1 one step lasts 1/subdivision of a quarter note |
| AudioEngine.Fire | src/hooks/useAudioEngine.ts:297-302 | triggers exactly the roster drums enabled at the key, each with its cell's accent and volume, and as many triggers as there are enabled roster entries |
| AudioEngine.Advance | src/hooks/useAudioEngine.ts:313-322 | step+1 inside the measure; at the end step 0 and the next measure, wrapping past the last to 1; nothing else changes |
| AudioEngine.CountInTick | src/hooks/useAudioEngine.ts:270-291 | reports (beat, 0, sub); on the last count-in step switches to playing at step 0 of measure 1, otherwise advances within measure 0 |
| AudioEngine.CountInTickClicksOnBeats | src/hooks/useAudioEngine.ts:270-274 | a count-in tick clicks exactly once when its sub-beat is 1 and not at all otherwise, and never triggers a drum |
| AudioEngine.PlayTick | src/hooks/useAudioEngine.ts:292-322 | reports (beat, measure, sub); afterwards the step is inside the measure and the measure stays in 1..measures |
| AudioEngine.PlayTickTriggersEnabledCells | src/hooks/useAudioEngine.ts:292-302 | a normal tick triggers exactly the roster drums enabled in the active pattern at the key, with their accents, once per enabled roster entry, and never clicks |
| AudioEngine.ActivePattern | src/hooks/useAudioEngine.ts:294-295 | the fill pattern is chosen only on the last measure with the fill on; otherwise the main pattern |
| AudioEngine.Tick | src/hooks/useAudioEngine.ts:260-327 | the loop callback dispatches on measure 0: the last event reports the position with the tick's measure; the count-in steps within measure 0 until its last step; a normal tick never returns to measure 0 |
| AudioEngine.FillReplacesMainOnLastMeasure | src/hooks/useAudioEngine.ts:294-295 | the fill is consulted only on the last measure with the fill on; otherwise only the main pattern is |
| AudioEngine.TickKeepsRange | src/hooks/useAudioEngine.ts:260-322 | a tick keeps step < beats*subdivision and measure ≤ measures |
| AudioEngine.RunKeepsRange | src/hooks/useAudioEngine.ts:260-322 | any number of ticks keeps the counters in range |
| AudioEngine.CountInTickPositions | src/hooks/useAudioEngine.ts:277-282 | a count-in tick reports exactly one position, in measure 0 |
| AudioEngine.PlayTickPositions | src/hooks/useAudioEngine.ts:305-310 | a normal tick reports exactly one position, in its measure |
| AudioEngine.CountInCompletes | src/hooks/useAudioEngine.ts:270-291 | the rest of the count-in reports each step in order in measure 0, triggers nothing, and ends playing at step 0 of measure 1 |
| AudioEngine.PlayTickCounters | src/hooks/useAudioEngine.ts:313-322 | counters after one normal tick: next step, or step 0 of the next (wrapped) measure |
| AudioEngine.MeasureCompletes | src/hooks/useAudioEngine.ts:292-322 | the rest of a measure reports each step's position in order and ends at step 0 of the next measure |
| AudioEngine.EightTickScenario | src/hooks/useAudioEngine.ts:260-322 | 4 beats × 2 sub-beats, 1 measure: eight ticks report 1.1 … 4.2 and return to step 0 of measure 1 |
| AudioEngine.CountInScenario | src/hooks/useAudioEngine.ts:270-291 | a 4-beat count-in reports beats 1–4 of measure 0, then the next tick reports 1.1 of measure 1 |
| AudioEngine.BeginCreateLoop | src/hooks/useAudioEngine.ts:221-249 | a no-op while a rebuild is in flight; otherwise takes the guard, drops the loop and sets the counters for reset, count-in or preserved position |
| AudioEngine.CompleteCreateLoop | src/hooks/useAudioEngine.ts:252-332 | an unstarted loop exists and the guard is released; nothing else (counters, flags, displayed position) changes |
| AudioEngine.CreateLoop | src/hooks/useAudioEngine.ts:221-333 | an uninterrupted rebuild leaves an unstarted loop, the guard free and the counters Begin set; a guarded call changes nothing; no other field (flags, guard, displayed position) changes |
| AudioEngine.RebuildInFlightDropsRequests | src/hooks/useAudioEngine.ts:222-223 | a rebuild requested while one is in flight is dropped |
| AudioEngine.StartLoop | src/hooks/useAudioEngine.ts:350-355 | an existing loop is started; without one nothing changes |
| AudioEngine.Start | src/hooks/useAudioEngine.ts:335-355 | with count-in: counting in at step 0 of measure 0; without: playing at step 0 of measure 1; the loop runs, the rebuild guard is released afterwards and the displayed position is untouched |
| AudioEngine.StartWithoutCountIn | src/hooks/useAudioEngine.ts:357-371 | plays from step 0 of measure 1 whatever the count-in setting; the rebuild guard is released afterwards and the displayed position is untouched |
| AudioEngine.Stop | src/hooks/useAudioEngine.ts:373-392 | returns the transport to its initial state: no loop, flags and guard clear, step 0, measure 1, shown 1.1 |
| AudioEngine.Pause | src/hooks/useAudioEngine.ts:394-401 | keeps the counters and the loop object, clears both flags, the loop is not running; nothing else changes (guard and displayed position included) |
| AudioEngine.StopReleasesGuard | src/hooks/useAudioEngine.ts:388 | a stop during an in-flight rebuild releases the guard, so the next rebuild goes through |
| AudioEngine.PlaybackInputsEffect | src/hooks/useAudioEngine.ts:403-409 | while playing nothing changes; otherwise the loop is rebuilt from step 0 of measure 1; no other field (flags, guard, displayed position) changes |
| AudioEngine.Settle | src/hooks/useAudioEngine.ts:403-409 | the effect runs only when isPlaying changed; a change to not playing rewinds to step 0 of measure 1 with a fresh unstarted loop (unless a rebuild is in flight); a change to playing leaves the state as it is; only counters and loop ever change |
| AudioEngine.PauseRewindsWhilePlaying | src/hooks/useAudioEngine.ts:394-409 | pausing a playing transport rewinds it to step 0 of measure 1; pausing the count-in keeps the counters |
| AudioEngine.ResumeRestartsFromTop | src/hooks/useAudioEngine.ts:335-355 | play after pause starts at step 0 of measure 1, not where it paused |
| AudioEngine.EditDuringCountInStopsLoop | src/hooks/useAudioEngine.ts:403-409 | a pattern edit during the count-in replaces the running loop by an unstarted one at measure 1, still flagged counting in |
| AudioEngine.ClampMeasure | src/hooks/useAudioEngine.ts:123-131 | a measure counter beyond the new count goes to 1; nothing else changes |
| AudioEngine.ClampRestoresRange | src/hooks/useAudioEngine.ts:123-131 | after the clamp the counters are in range for the new count; measure 0 stays 0 |
| AudioEngine.MeasuresChanged | src/hooks/useAudioEngine.ts:123-131 | while playing only the clamp applies; otherwise a rebuild to step 0 of measure 1 follows; no other field (flags, guard, displayed position) changes |
| AudioEngine.StructureChanged | src/hooks/useAudioEngine.ts:411-424 | while playing the loop restarts in the same measure at the converted step; otherwise it is rebuilt from the top; no other field (flags, guard, displayed position) changes |
| AudioEngine.StructureChangedAsWritten | src/hooks/useAudioEngine.ts:230-236 | as the source runs it, a playing transport keeps its raw step across a subdivision change; no other field (flags, guard, displayed position) changes |
| AudioEngine.StaleSubdivisionCounterexample | src/hooks/useAudioEngine.ts:230-236 | 2→4 sub-beats at position 2.2: as written the step reads 1.4, intended gives 2.2 |
| AudioEngine.StaleSubdivisionLeavesMeasure | src/hooks/useAudioEngine.ts:230-236 | 2→1 sub-beat at 4.2 of four beats: as written step 7 lies outside the 4-step measure |
| AudioEngine.StructureChangeStaysInMeasure | src/hooks/useAudioEngine.ts:411-424 | across a subdivision change with the meter unchanged, the intended conversion keeps a playing transport inside the new measure |
| DrumGrid.GetBeatPosition | src/components/DrumGrid.tsx:39-43 | the grid's column key is the engine's StepToPosition, a valid position |
| DrumGrid.Columns | src/components/DrumGrid.tsx:71-75 | beatsPerMeasure*subdivision columns, column i showing GetBeatPosition(i) |
| DrumGrid.ColumnsCoverGrid | src/components/DrumGrid.tsx:37-43 | the columns are pairwise distinct and show exactly the grid's keys |
| DrumGrid.IsCurrentStep | src/components/DrumGrid.tsx:45-50 | a column is highlighted only while playing, and then exactly when it is the step the displayed (beat, sub-beat) names; an invalid displayed position highlights nothing |
| DrumGrid.AtMostOneCurrentStep | src/components/DrumGrid.tsx:45-50 | at most one column is highlighted |
| DrumGrid.TickHighlightsPlayedStep | src/components/DrumGrid.tsx:45-50 | after a normal tick the highlighted column is exactly the step just played |
| DrumGrid.CountInHighlightsNothing | src/components/DrumGrid.tsx:45-50 | no column is highlighted during the count-in before its last tick |
| DrumGrid.CountInLastTickHighlightsLastColumn | src/components/DrumGrid.tsx:45-50 | the last count-in tick sets playing, so the last column is highlighted |
| DrumGrid.IsColumnAccented | src/components/DrumGrid.tsx:60-65 | true iff some roster drum is accented at the key (missing cells unaccented) |
| DrumGrid.IsBeatAccented | src/components/DrumGrid.tsx:52-58 | true iff some roster drum is accented at `b.1` |
| DrumGrid.HeaderLabel | src/components/DrumGrid.tsx:72-86 | a label exactly on sub-beat 1, showing the column's beat |
| DrumGrid.HeaderLabelMarksBeatStarts | src/components/DrumGrid.tsx:72-74 | column i is labelled b iff b ≥ 1 and i = (b-1)*subdivision |
| DrumGrid.HeaderClick | src/components/DrumGrid.tsx:82 | a header click sets every roster accent of that column to the negated indicator; no `enabled` flag changes, and cells of other keys and of non-roster drums are kept |
| DrumGrid.HeaderClickFlipsIndicator | src/components/DrumGrid.tsx:76-82 | with a non-empty roster a header click flips that header's accent indicator |

## Left out

- Sound output is not modelled. The model leaves out Tone.js oscillators and noise, the transport clock, the count-in click's pitch and length, and each drum's decay. Ticks return events instead.
- The 10 ms settle delay, `requestAnimationFrame` and React's batching are replaced by explicit operations applied in order. Ticks that run between `BeginCreateLoop` and `CompleteCreateLoop` are not modelled, because no loop exists then.
- The React hooks plumbing (`useState`/`useRef`/`useEffect` wiring and the refs that mirror props) is left out. Each tick reads its live values from a `Live` record instead.
- Loading sound kits, audio-context unlocking (`Tone.start`), cleanup on unmount and console logging are left out.
- Loading the drum and preset configuration from JSON is left out. `getInitialState` (the built-in "rock" default) and `updateBeatPosition` (a plain field copy) are not modelled.
- `App.tsx` is left out: keyboard shortcuts, and masking the highlight while the fill plays. `Controls.tsx`, `FillGrid.tsx`, `MeasureCounter.tsx` and `CountdownOverlay.tsx` are not part of this model.
- Preset position lists hold `Pos` values rather than strings. A string that is not a rendered key never names a grid cell, so the source ignores it either way.
- KeyText / ParseKey / KeyOrderAgrees cover single-digit beats and sub-beats only. The controls' number inputs (Controls.tsx:111-135) intend beats 2–8 and subdivision 1–4 through their min/max ranges, but pass `parseInt` of the field on unchecked; typed out-of-range values and NaN are not modelled. With ten or more beats, JavaScript's string sort would put "10.1" before "2.1"; for the same reason SortKeys and ConvertPatternToPresetFormat sort by (beat, sub) pairs, which differs from the source's string sort from ten beats on.
- Counters and settings are unbounded integers. JavaScript numbers are doubles, which are exact for every counter value reachable here. The model assumes a subdivision that is an integer ≥ 1, the range the controls' min/max intend; a typed 0, a negative value or NaN from an emptied field is not modelled.
- Tick: the loop callback's `try`/`catch` (useAudioEngine.ts:261, 324-326) is not modelled. If `playDrum` or `playCountInClick` throws, the source skips the remaining triggers and the position callback and leaves the counters unadvanced for that tick; the model's tick always completes, because sound output is outside the model.
- `isBeatAccented` is defined in the grid but no rendered element uses it. It is modelled (IsBeatAccented) for completeness.

## Findings

| source | as written | input that shows it | evidently intended | confidence | as-written member | corrected member |
|---|---|---|---|---|---|---|
| src/hooks/useAudioEngine.ts:230-236 | the position-preserving rebuild reads the old subdivision from `subdivisionRef.current`, which the effect at lines 133-136 has already set to the new value (effects run in declaration order), so the conversion divides by the new subdivision and keeps the raw step | playing at beat 2, sub-beat 2 with 2 sub-beats (step 3), change to 4 sub-beats: step stays 3, which is beat 1, sub-beat 4; with 4 beats at step 7, change 2 → 1: step 7 lies outside the 4-step measure | convert with the previous subdivision: 2 → 4 gives step 5 (beat 2, sub-beat 2); 2 → 1 gives step 3 (beat 4) | not executed; follows from React's effect order | AudioEngine.StructureChangedAsWritten | AudioEngine.StructureChanged |

=== FILE: audio_engine.dfy ===
/** The audio engine's transport: a step counter and a measure counter walked by
    a periodic tick, the count-in / play / pause / stop flags, the guarded loop
    rebuild, and the React effects that rebuild the loop, each as an explicit
    operation on an immutable Transport record. A tick returns the events it
    emits instead of producing sound. */
module AudioEngine {
  import opened BeatCalculus
  import opened PatternStore

  /** What a tick emits: a count-in click, a drum trigger with its accent flag
      and volume in dB, or a position callback (beat, measure, subBeat). */
  datatype Event =
    | Click
    | Trigger(drum: DrumId, accent: bool, volume: int)
    | Position(beat: int, measure: int, subBeat: int)

  /** The loop object: none, created but not started, or started. */
  datatype Loop = NoLoop | Created | Running

  /** Counters, phase flags, the rebuild guard, the loop, and the position the
      engine last published for display. Measure 0 is the count-in measure. */
  datatype Transport = Transport(
    step: nat,
    measure: nat,
    isPlaying: bool,
    isCountingIn: bool,
    recreating: bool,
    loop: Loop,
    currentBeat: int,
    currentMeasure: int,
    currentSubBeat: int)

  const Initial := Transport(0, 1, false, false, false, NoLoop, 1, 1, 1)

  /** The live copies the tick reads on every step. */
  datatype Live = Live(
    drums: seq<DrumId>,
    pattern: Pattern,
    fillPattern: Pattern,
    fillEnabled: bool,
    measures: int,
    beatsPerMeasure: int,
    subdivision: int,
    accentVolumeReduction: int)

  datatype TickResult = TickResult(t: Transport, events: seq<Event>)

  function TotalSteps(cfg: Live): int
  {
    cfg.beatsPerMeasure * cfg.subdivision
  }

  // ---- trigger volume (playDrum) ----

  predicate IsHiHat(drum: DrumId)
  {
    drum == "hihat-closed" || drum == "hihat-open"
  }

  /** The per-drum level offset of playDrum's switch, in dB. */
  function DrumOffset(drum: DrumId): (o: int)
    ensures o == -10 <==> IsHiHat(drum)
    ensures o == -5 <==> drum == "ride"
    ensures o == 0 <==> !IsHiHat(drum) && drum != "ride"
  {
    if IsHiHat(drum) then -10 else if drum == "ride" then -5 else 0
  }

  /** The volume in dB of one trigger: full level when accented, lowered by the
      accent reduction otherwise, plus the drum's offset. */
  function TriggerVolume(drum: DrumId, accent: bool, reduction: int): (v: int)
    ensures accent ==> v == DrumOffset(drum)
    ensures !accent ==> v + reduction == DrumOffset(drum)
    ensures reduction >= 0 ==> v <= 0
  {
    (if accent then 0 else -reduction) + DrumOffset(drum)
  }

  /** An accent is louder than a plain hit of the same drum by exactly the reduction. */
  lemma AccentLouderByReduction(drum: DrumId, reduction: int)
    ensures TriggerVolume(drum, true, reduction) - TriggerVolume(drum, false, reduction) == reduction
  {
  }

  /** Auditioning a drum outside the transport: a plain, unaccented trigger. */
  function Preview(drum: DrumId, reduction: int): (e: Event)
    ensures e.Trigger? && e.drum == drum && !e.accent
    ensures e.volume == TriggerVolume(drum, false, reduction)
  {
    Trigger(drum, false, TriggerVolume(drum, false, reduction))
  }

  // ---- step duration ----

  /** A Tone.js note value: "8n" is Note(8, false), "8t" is Note(8, true). */
  datatype NoteValue = Note(denominator: int, triplet: bool)

  /** The loop interval chosen for a subdivision. */
  function StepDuration(subdivision: int): (n: NoteValue)
    ensures subdivision == 3 <==> n.triplet
  {
    if subdivision == 2 then Note(8, false)
    else if subdivision == 3 then Note(8, true)
    else Note(subdivision * 4, false)
  }

  /** Length of a note value as a fraction (num, den) of a whole note; a triplet
      lasts two thirds of the plain value. */
  function WholeNoteFraction(n: NoteValue): (int, int)
  {
    if n.triplet then (2, 3 * n.denominator) else (1, n.denominator)
  }

  /** One step lasts exactly one sub-beat: 1/subdivision of a quarter note. */
  lemma StepDurationIsOneSubBeat(subdivision: int)
    requires subdivision >= 1
    ensures var (num, den) := WholeNoteFraction(StepDuration(subdivision));
      num * 4 * subdivision == den
  {
  }

  // ---- the tick ----

  /** The roster indices whose cell at key k is enabled. */
  function EnabledAt(p: Pattern, drums: seq<DrumId>, k: Pos): set<int>
  {
    set i | 0 <= i < |drums| && CellAt(p, drums[i], k).enabled
  }

  /** Shifting a set of integers by one keeps its size. */
  lemma {:induction false} ShiftedCard(s: set<int>)
    ensures |set i | i in s :: i + 1| == |s|
    decreases |s|
  {
    if s != {} {
      assert exists x :: x in s by {
        if forall x :: x !in s {
          assert false;
        }
      }
      var x :| x in s;
      var rest := s - {x};
      ShiftedCard(rest);
      var all := set i | i in s :: i + 1;
      var shifted := set i | i in rest :: i + 1;
      forall y ensures y in all <==> y in shifted + {x + 1} {
        if y in all && y != x + 1 {
          assert y - 1 in rest;
        }
      }
      assert all == shifted + {x + 1};
      assert x + 1 !in shifted;
    }
  }

  /** The enabled indices of a roster are its head's (index 0), if enabled, and
      its tail's shifted by one. */
  lemma EnabledAtCons(p: Pattern, drums: seq<DrumId>, k: Pos)
    requires |drums| > 0
    ensures |EnabledAt(p, drums, k)|
      == (if CellAt(p, drums[0], k).enabled then 1 else 0) + |EnabledAt(p, drums[1..], k)|
  {
    var tail := set i | i in EnabledAt(p, drums[1..], k) :: i + 1;
    ShiftedCard(EnabledAt(p, drums[1..], k));
    assert 0 !in tail;
    forall i ensures i in EnabledAt(p, drums, k) <==> (i == 0 && CellAt(p, drums[0], k).enabled) || i in tail {
      if i in EnabledAt(p, drums, k) && i != 0 {
        assert drums[1..][i - 1] == drums[i];
        assert i - 1 in EnabledAt(p, drums[1..], k);
      }
      if i in tail {
        var j :| j in EnabledAt(p, drums[1..], k) && i == j + 1;
        assert drums[1..][j] == drums[i];
      }
    }
    if CellAt(p, drums[0], k).enabled {
      assert EnabledAt(p, drums, k) == {0} + tail;
    } else {
      assert EnabledAt(p, drums, k) == tail;
    }
  }

  /** Drum triggers for the cells at key k, in roster order: exactly the roster
      drums whose cell is enabled, each with that cell's accent, one trigger per
      enabled roster entry. */
  function Fire(p: Pattern, drums: seq<DrumId>, k: Pos, reduction: int): (r: seq<Event>)
    ensures forall e :: e in r ==>
      && e.Trigger? && e.drum in drums
      && CellAt(p, e.drum, k).enabled
      && e.accent == CellAt(p, e.drum, k).accent
      && e.volume == TriggerVolume(e.drum, e.accent, reduction)
    ensures forall d :: d in drums && CellAt(p, d, k).enabled ==>
      Trigger(d, CellAt(p, d, k).accent, TriggerVolume(d, CellAt(p, d, k).accent, reduction)) in r
    ensures |r| == |EnabledAt(p, drums, k)|
    decreases |drums|
  {
    if |drums| == 0 then
      assert EnabledAt(p, drums, k) == {};
      []
    else
      var c := CellAt(p, drums[0], k);
      var rest := Fire(p, drums[1..], k, reduction);
      EnabledAtCons(p, drums, k);
      assert forall d :: d in drums ==> d == drums[0] || d in drums[1..];
      if c.enabled then [Trigger(drums[0], c.accent, TriggerVolume(drums[0], c.accent, reduction))] + rest
      else rest
  }

  /** The fill pattern plays only when the fill is enabled and this is the last measure. */
  function ActivePattern(cfg: Live, measure: int): (r: Pattern)
    ensures !cfg.fillEnabled ==> r == cfg.pattern
    ensures measure != cfg.measures ==> r == cfg.pattern
    ensures cfg.fillEnabled && measure == cfg.measures ==> r == cfg.fillPattern
  {
    if cfg.fillEnabled && measure == cfg.measures then cfg.fillPattern else cfg.pattern
  }

  /** The counter advance that ends every tick except the count-in's last. */
  function Advance(t: Transport, cfg: Live): (r: Transport)
    ensures r.(step := t.step, measure := t.measure) == t
    ensures t.step + 1 < TotalSteps(cfg) ==> r.step == t.step + 1 && r.measure == t.measure
    ensures t.step + 1 >= TotalSteps(cfg) ==> r.step == 0
    ensures t.step + 1 >= TotalSteps(cfg) && t.measure + 1 <= cfg.measures ==> r.measure == t.measure + 1
    ensures t.step + 1 >= TotalSteps(cfg) && t.measure + 1 > cfg.measures ==> r.measure == 1
  {
    var step := t.step + 1;
    if step >= TotalSteps(cfg) then
      var measure := t.measure + 1;
      t.(step := 0, measure := if measure > cfg.measures then 1 else measure)
    else
      t.(step := step)
  }

  /** A tick of the count-in measure: a click on every beat's first sub-beat,
      a position callback with measure 0, and on the last step the switch to
      measure 1 without the normal advance. */
  function CountInTick(t: Transport, cfg: Live): (r: TickResult)
    requires cfg.subdivision >= 1 && t.measure == 0
    ensures var pos := StepToPosition(t.step, cfg.subdivision);
      && |r.events| >= 1
      && r.events[|r.events| - 1] == Position(pos.beat, 0, pos.sub)
      && r.t.currentBeat == pos.beat && r.t.currentMeasure == 0 && r.t.currentSubBeat == pos.sub
    ensures t.step >= TotalSteps(cfg) - 1 ==>
      r.t.step == 0 && r.t.measure == 1 && !r.t.isCountingIn && r.t.isPlaying
    ensures t.step < TotalSteps(cfg) - 1 ==>
      r.t.step == t.step + 1 && r.t.measure == 0
      && r.t.isCountingIn == t.isCountingIn && r.t.isPlaying == t.isPlaying
    ensures r.t.loop == t.loop && r.t.recreating == t.recreating
  {
    var pos := StepToPosition(t.step, cfg.subdivision);
    var clicks := if pos.sub == 1 then [Click] else [];
    var events := clicks + [Position(pos.beat, 0, pos.sub)];
    var shown := t.(currentBeat := pos.beat, currentMeasure := 0, currentSubBeat := pos.sub);
    if t.step >= TotalSteps(cfg) - 1 then
      TickResult(shown.(step := 0, measure := 1, isCountingIn := false, isPlaying := true), events)
    else
      TickResult(Advance(shown, cfg), events)
  }

  /** A tick of a normal measure: trigger the enabled cells of the active pattern
      at the current key, publish the position, advance the counters. */
  function PlayTick(t: Transport, cfg: Live): (r: TickResult)
    requires cfg.subdivision >= 1 && t.measure != 0
    ensures var pos := StepToPosition(t.step, cfg.subdivision);
      && |r.events| >= 1
      && r.events[|r.events| - 1] == Position(pos.beat, t.measure, pos.sub)
      && r.t.currentBeat == pos.beat && r.t.currentMeasure == t.measure && r.t.currentSubBeat == pos.sub
    ensures TotalSteps(cfg) >= 1 ==> r.t.step < TotalSteps(cfg)
    ensures 1 <= r.t.measure
    ensures t.measure <= cfg.measures ==> r.t.measure <= cfg.measures
    ensures r.t.isPlaying == t.isPlaying && r.t.isCountingIn == t.isCountingIn
    ensures r.t.loop == t.loop && r.t.recreating == t.recreating
  {
    var pos := StepToPosition(t.step, cfg.subdivision);
    var triggers := Fire(ActivePattern(cfg, t.measure), cfg.drums, pos, cfg.accentVolumeReduction);
    var events := triggers + [Position(pos.beat, t.measure, pos.sub)];
    var shown := t.(currentBeat := pos.beat, currentMeasure := t.measure, currentSubBeat := pos.sub);
    TickResult(Advance(shown, cfg), events)
  }

  /** A count-in tick clicks exactly once on a beat's first sub-beat, not at
      all otherwise, and never triggers a drum. */
  lemma CountInTickClicksOnBeats(t: Transport, cfg: Live)
    requires cfg.subdivision >= 1 && t.measure == 0
    ensures var r := CountInTick(t, cfg);
      && (Click in r.events <==> StepToPosition(t.step, cfg.subdivision).sub == 1)
      && |r.events| == (if StepToPosition(t.step, cfg.subdivision).sub == 1 then 2 else 1)
      && (forall e :: e in r.events ==> !e.Trigger?)
  {
  }

  /** Before its position callback, a normal tick emits triggers only, for
      exactly the roster drums enabled at the current key of the active
      pattern, once per enabled roster entry, each with that cell's accent; it
      never clicks. */
  lemma PlayTickTriggersEnabledCells(t: Transport, cfg: Live)
    requires cfg.subdivision >= 1 && t.measure != 0
    ensures var r := PlayTick(t, cfg);
      var pos := StepToPosition(t.step, cfg.subdivision);
      var active := ActivePattern(cfg, t.measure);
      && (forall e :: e in r.events[..|r.events| - 1] ==>
            e.Trigger? && e.drum in cfg.drums && CellAt(active, e.drum, pos).enabled
            && e.accent == CellAt(active, e.drum, pos).accent)
      && (forall d :: d in cfg.drums && CellAt(active, d, pos).enabled ==>
            Trigger(d, CellAt(active, d, pos).accent,
                    TriggerVolume(d, CellAt(active, d, pos).accent, cfg.accentVolumeReduction)) in r.events)
      && |r.events| - 1 == |EnabledAt(active, cfg.drums, pos)|
      && Click !in r.events
  {
    var r := PlayTick(t, cfg);
    var pos := StepToPosition(t.step, cfg.subdivision);
    var triggers := Fire(ActivePattern(cfg, t.measure), cfg.drums, pos, cfg.accentVolumeReduction);
    assert r.events == triggers + [Position(pos.beat, t.measure, pos.sub)];
    assert r.events[..|r.events| - 1] == triggers;
  }

  /** One tick of the loop callback: the count-in tick in measure 0, a normal
      tick otherwise. Either way the last event reports the position just
      played with the tick's own measure; the count-in stays in measure 0 until
      its last step, and once past it the transport never returns to measure 0. */
  function Tick(t: Transport, cfg: Live): (r: TickResult)
    requires cfg.subdivision >= 1
    ensures var pos := StepToPosition(t.step, cfg.subdivision);
      && |r.events| >= 1
      && r.events[|r.events| - 1] == Position(pos.beat, t.measure, pos.sub)
    ensures t.measure != 0 ==> r.t.measure != 0
    ensures t.measure == 0 && t.step < TotalSteps(cfg) - 1 ==> r.t.measure == 0 && r.t.step == t.step + 1
    ensures r.t.loop == t.loop && r.t.recreating == t.recreating
  {
    if t.measure == 0 then CountInTick(t, cfg) else PlayTick(t, cfg)
  }

  /** On the last measure with the fill enabled the main pattern is not consulted;
      otherwise the fill pattern is not consulted. */
  lemma FillReplacesMainOnLastMeasure(t: Transport, cfg: Live, other: Pattern)
    requires cfg.subdivision >= 1 && t.measure != 0
    ensures cfg.fillEnabled && t.measure == cfg.measures ==>
      PlayTick(t, cfg).events == PlayTick(t, cfg.(pattern := other)).events
    ensures !(cfg.fillEnabled && t.measure == cfg.measures) ==>
      PlayTick(t, cfg).events == PlayTick(t, cfg.(fillPattern := other)).events
  {
  }

  /** Step and measure counters within their ranges (measure 0 is the count-in). */
  predicate InRange(t: Transport, cfg: Live)
  {
    t.step < TotalSteps(cfg) && t.measure <= cfg.measures
  }

  /** Every tick keeps the counters in range. */
  lemma TickKeepsRange(t: Transport, cfg: Live)
    requires cfg.subdivision >= 1 && cfg.measures >= 1
    requires InRange(t, cfg)
    ensures InRange(Tick(t, cfg).t, cfg)
  {
  }

  /** n ticks in a row with fixed live parameters, and everything they emit. */
  function Run(t: Transport, cfg: Live, n: nat): TickResult
    requires cfg.subdivision >= 1
    decreases n
  {
    if n == 0 then TickResult(t, [])
    else
      var first := Tick(t, cfg);
      var rest := Run(first.t, cfg, n - 1);
      TickResult(rest.t, first.events + rest.events)
  }

  lemma {:induction false} RunKeepsRange(t: Transport, cfg: Live, n: nat)
    requires cfg.subdivision >= 1 && cfg.measures >= 1
    requires InRange(t, cfg)
    ensures InRange(Run(t, cfg, n).t, cfg)
    decreases n
  {
    if n > 0 {
      TickKeepsRange(t, cfg);
      RunKeepsRange(Tick(t, cfg).t, cfg, n - 1);
    }
  }

  /** The position callbacks among a sequence of events. */
  function Positions(events: seq<Event>): (r: seq<Event>)
    ensures |r| <= |events|
    ensures forall i :: 0 <= i < |r| ==> r[i].Position?
    decreases |events|
  {
    if |events| == 0 then []
    else if events[0].Position? then [events[0]] + Positions(events[1..])
    else Positions(events[1..])
  }

  lemma {:induction false} PositionsAppend(a: seq<Event>, b: seq<Event>)
    ensures Positions(a + b) == Positions(a) + Positions(b)
    decreases |a|
  {
    if |a| > 0 {
      assert (a + b)[1..] == a[1..] + b;
      PositionsAppend(a[1..], b);
    } else {
      assert a + b == b;
    }
  }

  /** Events with no position callback among them contribute none. */
  lemma {:induction false} PositionsOfNone(a: seq<Event>)
    requires forall i :: 0 <= i < |a| ==> !a[i].Position?
    ensures Positions(a) == []
    decreases |a|
  {
    if |a| > 0 {
      PositionsOfNone(a[1..]);
    }
  }

  /** The position callbacks k consecutive steps from `step` report in `measure`. */
  function ExpectedPositions(step: nat, k: nat, measure: int, subdivision: int): seq<Event>
    requires subdivision >= 1
    decreases k
  {
    if k == 0 then []
    else
      var pos := StepToPosition(step, subdivision);
      [Position(pos.beat, measure, pos.sub)] + ExpectedPositions(step + 1, k - 1, measure, subdivision)
  }

  /** A count-in tick reports exactly one position, in measure 0. */
  lemma CountInTickPositions(t: Transport, cfg: Live)
    requires cfg.subdivision >= 1 && t.measure == 0
    ensures var pos := StepToPosition(t.step, cfg.subdivision);
      Positions(CountInTick(t, cfg).events) == [Position(pos.beat, 0, pos.sub)]
  {
    var pos := StepToPosition(t.step, cfg.subdivision);
    var events := CountInTick(t, cfg).events;
    var last := [Position(pos.beat, 0, pos.sub)];
    var clicks := events[..|events| - 1];
    assert events == clicks + last;
    CountInTickClicksOnBeats(t, cfg);
    assert forall i :: 0 <= i < |clicks| ==> clicks[i] in events;
    PositionsOfNone(clicks);
    PositionsAppend(clicks, last);
  }

  /** The rest of a count-in measure: only clicks and measure-0 callbacks, then
      the transport is playing at step 0 of measure 1. */
  lemma {:induction false} CountInCompletes(t: Transport, cfg: Live, k: nat)
    requires cfg.subdivision >= 1
    requires t.measure == 0 && k >= 1 && t.step + k == TotalSteps(cfg)
    ensures var r := Run(t, cfg, k);
      && r.t.step == 0 && r.t.measure == 1 && r.t.isPlaying && !r.t.isCountingIn
      && (forall e :: e in r.events ==> !e.Trigger?)
      && Positions(r.events) == ExpectedPositions(t.step, k, 0, cfg.subdivision)
    decreases k
  {
    var first := CountInTick(t, cfg);
    var rest := Run(first.t, cfg, k - 1);
    assert Run(t, cfg, k) == TickResult(rest.t, first.events + rest.events);
    CountInTickClicksOnBeats(t, cfg);
    CountInTickPositions(t, cfg);
    PositionsAppend(first.events, rest.events);
    if k > 1 {
      CountInCompletes(first.t, cfg, k - 1);
    } else {
      assert rest == TickResult(first.t, []);
    }
    forall e | e in first.events + rest.events ensures !e.Trigger? {
      assert e in first.events || e in rest.events;
    }
  }

  /** The next measure number after the last step of `measure`. */
  function NextMeasure(measure: int, measures: int): int
  {
    if measure + 1 > measures then 1 else measure + 1
  }

  /** A normal tick reports exactly one position, in its own measure. */
  lemma PlayTickPositions(t: Transport, cfg: Live)
    requires cfg.subdivision >= 1 && t.measure != 0
    ensures var pos := StepToPosition(t.step, cfg.subdivision);
      Positions(PlayTick(t, cfg).events) == [Position(pos.beat, t.measure, pos.sub)]
  {
    var pos := StepToPosition(t.step, cfg.subdivision);
    var events := PlayTick(t, cfg).events;
    var last := [Position(pos.beat, t.measure, pos.sub)];
    var triggers := events[..|events| - 1];
    assert events == triggers + last;
    PlayTickTriggersEnabledCells(t, cfg);
    assert forall i :: 0 <= i < |triggers| ==> triggers[i] in triggers;
    PositionsOfNone(triggers);
    PositionsAppend(triggers, last);
  }

  /** The counters after one normal tick. */
  lemma PlayTickCounters(t: Transport, cfg: Live)
    requires cfg.subdivision >= 1 && t.measure >= 1
    ensures var r := PlayTick(t, cfg).t;
      && (t.step + 1 < TotalSteps(cfg) ==> r.step == t.step + 1 && r.measure == t.measure)
      && (t.step + 1 >= TotalSteps(cfg) ==> r.step == 0 && r.measure == NextMeasure(t.measure, cfg.measures))
      && r.isPlaying == t.isPlaying && r.isCountingIn == t.isCountingIn
  {
  }

  /** The rest of a normal measure: one callback per step in order, then step 0
      of the next measure (wrapping to 1 after the last). */
  lemma {:induction false} MeasureCompletes(t: Transport, cfg: Live, k: nat)
    requires cfg.subdivision >= 1
    requires t.measure >= 1 && k >= 1 && t.step + k == TotalSteps(cfg)
    ensures var r := Run(t, cfg, k);
      && r.t.step == 0 && r.t.measure == NextMeasure(t.measure, cfg.measures)
      && r.t.isPlaying == t.isPlaying && r.t.isCountingIn == t.isCountingIn
      && Positions(r.events) == ExpectedPositions(t.step, k, t.measure, cfg.subdivision)
    decreases k
  {
    var first := PlayTick(t, cfg);
    var rest := Run(first.t, cfg, k - 1);
    assert Run(t, cfg, k) == TickResult(rest.t, first.events + rest.events);
    PlayTickCounters(t, cfg);
    PlayTickPositions(t, cfg);
    PositionsAppend(first.events, rest.events);
    if k > 1 {
      MeasureCompletes(first.t, cfg, k - 1);
    } else {
      assert rest == TickResult(first.t, []);
    }
  }

  /** Four beats of two sub-beats, one measure, started without count-in: eight
      ticks report 1.1, 1.2, ..., 4.2 in measure 1 and come back to step 0 of
      measure 1. */
  lemma EightTickScenario(cfg: Live, t: Transport)
    requires cfg.beatsPerMeasure == 4 && cfg.subdivision == 2 && cfg.measures == 1
    requires t.step == 0 && t.measure == 1
    ensures Run(t, cfg, 8).t.step == 0 && Run(t, cfg, 8).t.measure == 1
    ensures Positions(Run(t, cfg, 8).events) ==
      [Position(1, 1, 1), Position(1, 1, 2), Position(2, 1, 1), Position(2, 1, 2),
       Position(3, 1, 1), Position(3, 1, 2), Position(4, 1, 1), Position(4, 1, 2)]
  {
    MeasureCompletes(t, cfg, 8);
    FourBeatsOfTwo();
  }

  /** The callbacks of one 4 x 2 measure, written out. */
  lemma FourBeatsOfTwo()
    ensures ExpectedPositions(0, 8, 1, 2) ==
      [Position(1, 1, 1), Position(1, 1, 2), Position(2, 1, 1), Position(2, 1, 2),
       Position(3, 1, 1), Position(3, 1, 2), Position(4, 1, 1), Position(4, 1, 2)]
  {
    var e4 := ExpectedPositions(6, 2, 1, 2);
    BeatOfTwo(6, 4);
    assert e4 == [Position(4, 1, 1), Position(4, 1, 2)];
    var e3 := ExpectedPositions(4, 4, 1, 2);
    BeatOfTwo(4, 3);
    assert e3 == [Position(3, 1, 1), Position(3, 1, 2)] + e4;
    var e2 := ExpectedPositions(2, 6, 1, 2);
    BeatOfTwo(2, 2);
    assert e2 == [Position(2, 1, 1), Position(2, 1, 2)] + e3;
    BeatOfTwo(0, 1);
  }

  /** Steps 2(b-1) and 2(b-1)+1 under two sub-beats report b.1 and b.2. */
  lemma BeatOfTwo(step: nat, b: int)
    requires step == 2 * (b - 1) && step <= 6
    ensures ExpectedPositions(step, 8 - step, 1, 2)
      == [Position(b, 1, 1), Position(b, 1, 2)] + ExpectedPositions(step + 2, 8 - step - 2, 1, 2)
  {
    DivModUnique(b - 1, 0, 2);
    DivModUnique(b - 1, 1, 2);
    assert (b - 1) * 2 == step;
    assert StepToPosition(step, 2) == Pos(b, 1);
    assert StepToPosition(step + 1, 2) == Pos(b, 2);
    ExpectedCons(step + 1, 8 - step - 1, 1, 2);
    ExpectedCons(step, 8 - step, 1, 2);
  }

  /** The first expected callback, then the rest. */
  lemma ExpectedCons(step: nat, k: nat, measure: int, subdivision: int)
    requires subdivision >= 1 && k >= 1
    ensures var pos := StepToPosition(step, subdivision);
      ExpectedPositions(step, k, measure, subdivision)
        == [Position(pos.beat, measure, pos.sub)] + ExpectedPositions(step + 1, k - 1, measure, subdivision)
  {
  }

  /** Count-in with four beats of one sub-beat: the first four ticks report
      measure 0 and the transport then plays from beat 1 of measure 1. */
  lemma CountInScenario(cfg: Live, t: Transport)
    requires cfg.beatsPerMeasure == 4 && cfg.subdivision == 1 && cfg.measures >= 1
    requires t.step == 0 && t.measure == 0 && t.isCountingIn
    ensures var r := Run(t, cfg, 4);
      && Positions(r.events) == [Position(1, 0, 1), Position(2, 0, 1), Position(3, 0, 1), Position(4, 0, 1)]
      && r.t.isPlaying && !r.t.isCountingIn
      && Tick(r.t, cfg).events[|Tick(r.t, cfg).events| - 1] == Position(1, 1, 1)
  {
    CountInCompletes(t, cfg, 4);
    assert ExpectedPositions(0, 4, 0, 1) ==
      [Position(1, 0, 1), Position(2, 0, 1), Position(3, 0, 1), Position(4, 0, 1)];
  }

  // ---- createLoop and its guard ----

  /** How the loop is rebuilt: from the top, into the count-in, or keeping the
      position across a subdivision change. */
  datatype Rebuild = Reset | CountIn | Preserve(oldSubdivision: int, newSubdivision: int)

  predicate ValidRebuild(mode: Rebuild)
  {
    mode.Preserve? ==> mode.oldSubdivision >= 1 && mode.newSubdivision >= 1
  }

  /** The part of createLoop that runs before the settle delay: take the guard,
      dispose the loop and set the counters; a no-op while a rebuild is in flight. */
  function BeginCreateLoop(t: Transport, mode: Rebuild): (r: Transport)
    requires ValidRebuild(mode)
    ensures t.recreating ==> r == t
    ensures !t.recreating ==> r.recreating && r.loop == NoLoop
    ensures !t.recreating ==> r.(step := t.step, measure := t.measure, recreating := t.recreating, loop := t.loop) == t
    ensures !t.recreating && mode.Reset? ==> r.step == 0 && r.measure == 1
    ensures !t.recreating && mode.CountIn? ==> r.step == 0 && r.measure == 0
    ensures !t.recreating && mode.Preserve? ==>
      && r.measure == t.measure
      && StepToPosition(r.step, mode.newSubdivision).beat == StepToPosition(t.step, mode.oldSubdivision).beat
      && StepToPosition(r.step, mode.newSubdivision).sub
         == Min(StepToPosition(t.step, mode.oldSubdivision).sub, mode.newSubdivision)
  {
    if t.recreating then t
    else
      var step := if mode.Preserve? then RebuildStep(t.step, mode.oldSubdivision, mode.newSubdivision) else 0;
      var measure := if mode.CountIn? then 0 else if mode.Preserve? then t.measure else 1;
      t.(recreating := true, loop := NoLoop, step := step, measure := measure)
  }

  /** The part of createLoop after the settle delay: a new, unstarted loop, and
      the guard released (the `finally`). */
  function CompleteCreateLoop(t: Transport): (r: Transport)
    ensures !r.recreating && r.loop == Created
    ensures r.step == t.step && r.measure == t.measure
    ensures r.isPlaying == t.isPlaying && r.isCountingIn == t.isCountingIn
    ensures r.(loop := t.loop, recreating := t.recreating) == t
  {
    t.(loop := Created, recreating := false)
  }

  /** An uninterrupted createLoop. */
  function CreateLoop(t: Transport, mode: Rebuild): (r: Transport)
    requires ValidRebuild(mode)
    ensures t.recreating ==> r == t
    ensures !t.recreating ==> !r.recreating && r.loop == Created
    ensures !t.recreating ==> r.step == BeginCreateLoop(t, mode).step && r.measure == BeginCreateLoop(t, mode).measure
    ensures r.isPlaying == t.isPlaying && r.isCountingIn == t.isCountingIn
    ensures r.(step := t.step, measure := t.measure, loop := t.loop) == t
  {
    if t.recreating then t else CompleteCreateLoop(BeginCreateLoop(t, mode))
  }

  /** While a rebuild is in flight, further rebuild requests are dropped. */
  lemma RebuildInFlightDropsRequests(t: Transport, first: Rebuild, second: Rebuild)
    requires ValidRebuild(first) && ValidRebuild(second) && !t.recreating
    ensures CreateLoop(BeginCreateLoop(t, first), second) == BeginCreateLoop(t, first)
  {
  }

  /** Starting the loop object, if there is one. */
  function StartLoop(t: Transport): (r: Transport)
    ensures t.loop != NoLoop ==> r.loop == Running
    ensures t.loop == NoLoop ==> r == t
    ensures r.(loop := t.loop) == t
  {
    if t.loop != NoLoop then t.(loop := Running) else t
  }

  /** start: with count-in, enter measure 0 counting in; without, play from step 0
      of measure 1. The loop is always rebuilt from the top, so a paused position
      is never resumed. */
  function Start(t: Transport, countInEnabled: bool): (r: Transport)
    ensures !t.recreating && countInEnabled ==>
      r.step == 0 && r.measure == 0 && r.isCountingIn && r.isPlaying == t.isPlaying && r.loop == Running
    ensures !t.recreating && !countInEnabled ==>
      r.step == 0 && r.measure == 1 && r.isPlaying && r.isCountingIn == t.isCountingIn && r.loop == Running
    ensures t.recreating ==> r.step == t.step && r.measure == t.measure
    ensures !t.recreating ==> !r.recreating
    ensures r.currentBeat == t.currentBeat && r.currentMeasure == t.currentMeasure
      && r.currentSubBeat == t.currentSubBeat
  {
    if countInEnabled then
      StartLoop(CreateLoop(t.(isCountingIn := true), CountIn))
    else
      StartLoop(CreateLoop(t, Reset).(isPlaying := true))
  }

  /** startWithoutCountIn: play from step 0 of measure 1 whatever the count-in setting. */
  function StartWithoutCountIn(t: Transport): (r: Transport)
    ensures !t.recreating ==> r.step == 0 && r.measure == 1 && r.isPlaying && r.loop == Running
    ensures r.isCountingIn == t.isCountingIn
    ensures t.recreating ==> r.step == t.step && r.measure == t.measure
    ensures !t.recreating ==> !r.recreating
    ensures r.currentBeat == t.currentBeat && r.currentMeasure == t.currentMeasure
      && r.currentSubBeat == t.currentSubBeat
  {
    StartLoop(CreateLoop(t, Reset).(isPlaying := true))
  }

  /** stop: dispose the loop, clear both flags and the rebuild guard, reset the
      counters and the displayed position. */
  function Stop(t: Transport): (r: Transport)
    ensures r == Initial
    ensures !r.isPlaying && !r.isCountingIn && !r.recreating && r.loop == NoLoop
  {
    t.(loop := NoLoop, isPlaying := false, isCountingIn := false,
       currentBeat := 1, currentMeasure := 1, currentSubBeat := 1,
       recreating := false, step := 0, measure := 1)
  }

  /** pause: stop the loop object and clear both flags; the counters, the
      rebuild guard and the displayed position stay. */
  function Pause(t: Transport): (r: Transport)
    ensures r.step == t.step && r.measure == t.measure && r.recreating == t.recreating
    ensures !r.isPlaying && !r.isCountingIn && r.loop != Running
    ensures (r.loop == NoLoop) == (t.loop == NoLoop)
    ensures r.(loop := t.loop, isPlaying := t.isPlaying, isCountingIn := t.isCountingIn) == t
  {
    t.(loop := if t.loop == NoLoop then NoLoop else Created, isPlaying := false, isCountingIn := false)
  }

  /** A stop during an in-flight rebuild releases the guard: the next request
      rebuilds again. */
  lemma StopReleasesGuard(t: Transport, mode: Rebuild)
    requires ValidRebuild(mode) && !t.recreating
    ensures BeginCreateLoop(t, mode).recreating
    ensures CreateLoop(Stop(BeginCreateLoop(t, mode)), Reset).loop == Created
  {
  }

  // ---- effects ----

  /** The effect on pattern, fill pattern, measures, fill flag and isPlaying:
      when not playing (also while counting in) it rebuilds the loop from the top. */
  function PlaybackInputsEffect(t: Transport): (r: Transport)
    ensures t.isPlaying ==> r == t
    ensures !t.isPlaying && !t.recreating ==> r.step == 0 && r.measure == 1 && r.loop == Created
    ensures r.(step := t.step, measure := t.measure, loop := t.loop) == t
  {
    if !t.isPlaying then CreateLoop(t, Reset) else t
  }

  /** The state after an operation that may flip isPlaying, with the effect
      that a change of isPlaying triggers. */
  function Settle(before: Transport, after: Transport): (r: Transport)
    ensures before.isPlaying == after.isPlaying ==> r == after
    ensures before.isPlaying && !after.isPlaying && !after.recreating ==>
      r.step == 0 && r.measure == 1 && r.loop == Created && !r.recreating
    ensures before.isPlaying && !after.isPlaying && after.recreating ==> r == after
    ensures !before.isPlaying && after.isPlaying ==> r == after
    ensures r.(step := after.step, measure := after.measure, loop := after.loop) == after
  {
    if before.isPlaying != after.isPlaying then PlaybackInputsEffect(after) else after
  }

  /** Pausing while playing flips isPlaying, so the effect rewinds the counters to
      step 0 of measure 1; pausing during the count-in leaves them where they were. */
  lemma PauseRewindsWhilePlaying(t: Transport)
    ensures t.isPlaying && !t.recreating ==>
      Settle(t, Pause(t)).step == 0 && Settle(t, Pause(t)).measure == 1
    ensures !t.isPlaying ==>
      Settle(t, Pause(t)).step == t.step && Settle(t, Pause(t)).measure == t.measure
  {
  }

  /** Resuming after a pause starts from the top whatever the paused position. */
  lemma ResumeRestartsFromTop(t: Transport)
    requires !t.recreating
    ensures Start(Settle(t, Pause(t)), false).step == 0
    ensures Start(Settle(t, Pause(t)), false).measure == 1
  {
  }

  /** Editing a pattern during the count-in (isPlaying is still false) replaces the
      running count-in loop by an unstarted one at measure 1, while the
      counting-in flag stays set. */
  lemma EditDuringCountInStopsLoop(t: Transport)
    requires t.isCountingIn && !t.isPlaying && !t.recreating && t.loop == Running
    ensures PlaybackInputsEffect(t).loop == Created
    ensures PlaybackInputsEffect(t).measure == 1
    ensures PlaybackInputsEffect(t).isCountingIn
  {
  }

  /** The measures effect: a measure counter beyond the new count goes back to 1. */
  function ClampMeasure(t: Transport, measures: int): (r: Transport)
    ensures r.(measure := t.measure) == t
    ensures t.measure > measures ==> r.measure == 1
    ensures t.measure <= measures ==> r == t
  {
    if t.measure > measures then t.(measure := 1) else t
  }

  /** After a measure-count change the counter is back in range for the new count,
      and the count-in measure is left alone. */
  lemma ClampRestoresRange(t: Transport, cfg: Live, measures: int)
    requires t.step < TotalSteps(cfg) && measures >= 1
    ensures InRange(ClampMeasure(t, measures), cfg.(measures := measures))
    ensures t.measure == 0 ==> ClampMeasure(t, measures).measure == 0
  {
  }

  /** A change of the measure count: the clamp, then the playback-inputs effect. */
  function MeasuresChanged(t: Transport, measures: int): (r: Transport)
    ensures t.isPlaying ==> r == ClampMeasure(t, measures)
    ensures !t.isPlaying && !t.recreating ==> r.step == 0 && r.measure == 1
    ensures r.(step := t.step, measure := t.measure, loop := t.loop) == t
  {
    PlaybackInputsEffect(ClampMeasure(t, measures))
  }

  /** The structural effect on subdivision or meter change: while playing,
      rebuild keeping the position converted from the previous subdivision and
      restart the loop; otherwise rebuild from the top. */
  function StructureChanged(t: Transport, previousSubdivision: int, newSubdivision: int): (r: Transport)
    requires previousSubdivision >= 1 && newSubdivision >= 1
    ensures t.isPlaying && !t.recreating ==>
      && r.loop == Running && r.measure == t.measure
      && r.step == RebuildStep(t.step, previousSubdivision, newSubdivision)
    ensures !t.isPlaying && !t.recreating ==> r.step == 0 && r.measure == 1 && r.loop == Created
    ensures t.recreating ==> r.step == t.step && r.measure == t.measure
    ensures r.(step := t.step, measure := t.measure, loop := t.loop) == t
  {
    if t.isPlaying then StartLoop(CreateLoop(t, Preserve(previousSubdivision, newSubdivision)))
    else CreateLoop(t, Reset)
  }

  /** The structural effect as the source runs it: the "old" subdivision is read
      from the live copy, which the subdivision effect has already set to the new
      value, so the conversion receives the new subdivision twice. */
  function StructureChangedAsWritten(t: Transport, newSubdivision: int): (r: Transport)
    requires newSubdivision >= 1
    ensures t.isPlaying && !t.recreating ==> r.step == t.step && r.measure == t.measure
    ensures r.(step := t.step, measure := t.measure, loop := t.loop) == t
  {
    RebuildSameSubdivision(t.step, newSubdivision);
    StructureChanged(t, newSubdivision, newSubdivision)
  }

  /** The positions the two counterexamples below read back. */
  lemma ExamplePositions()
    ensures StepToPosition(3, 2) == Pos(2, 2) && StepToPosition(7, 2) == Pos(4, 2)
    ensures StepToPosition(3, 4) == Pos(1, 4) && StepToPosition(5, 4) == Pos(2, 2)
    ensures StepToPosition(3, 1) == Pos(4, 1)
  {
    DivModUnique(1, 1, 2);
    DivModUnique(3, 1, 2);
    DivModUnique(0, 3, 4);
    DivModUnique(1, 1, 4);
    DivModUnique(3, 0, 1);
  }

  /** The intended conversions of the two counterexamples below. */
  lemma ExampleRebuilds()
    ensures RebuildStep(3, 2, 4) == 5 && RebuildStep(7, 2, 1) == 3
  {
    DivModUnique(1, 1, 2);
    DivModUnique(3, 1, 2);
  }

  /** Changing from two to four sub-beats at beat 2, sub-beat 2 (step 3): as
      written the step stays 3, which reads as beat 1, sub-beat 4; the intended
      conversion gives step 5, which is beat 2, sub-beat 2 again. */
  lemma StaleSubdivisionCounterexample(t: Transport)
    requires t.isPlaying && !t.recreating && t.step == 3
    ensures StepToPosition(3, 2) == Pos(2, 2)
    ensures StructureChangedAsWritten(t, 4).step == 3 && StepToPosition(3, 4) == Pos(1, 4)
    ensures StructureChanged(t, 2, 4).step == 5 && StepToPosition(5, 4) == Pos(2, 2)
  {
    ExamplePositions();
    ExampleRebuilds();
  }

  /** Changing from two to one sub-beat at beat 4, sub-beat 2 (step 7) of a
      four-beat measure: as written the step stays 7, outside the four-step
      measure (StructureChangeStaysInMeasure rules this out for the intended
      conversion). */
  lemma StaleSubdivisionLeavesMeasure(t: Transport, cfg: Live)
    requires t.isPlaying && !t.recreating && t.step == 7
    requires cfg.beatsPerMeasure == 4 && cfg.subdivision == 1
    ensures StepToPosition(7, 2) == Pos(4, 2)
    ensures StructureChangedAsWritten(t, 1).step == 7
    ensures !InRange(StructureChangedAsWritten(t, 1), cfg)
  {
    ExamplePositions();
  }

  /** The intended structural rebuild keeps a running transport inside the new measure. */
  lemma StructureChangeStaysInMeasure(t: Transport, cfg: Live, newSubdivision: int)
    requires cfg.subdivision >= 1 && newSubdivision >= 1
    requires t.isPlaying && !t.recreating && InRange(t, cfg)
    ensures InRange(StructureChanged(t, cfg.subdivision, newSubdivision), cfg.(subdivision := newSubdivision))
  {
    RebuildStaysInMeasure(t.step, cfg.beatsPerMeasure, cfg.subdivision, newSubdivision);
  }
}

=== FILE: beat_calculus.dfy ===
/** Beat-position calculus: the mapping between a 0-based step index and the
    1-based (beat, sub-beat) position that names a grid column, and the
    position-preserving step conversion used when the subdivision changes. */
module BeatCalculus {

  datatype Option<T> = None | Some(value: T)

  /** A grid position; the source renders it as the key "beat.sub". */
  datatype Pos = Pos(beat: int, sub: int)

  function Min(a: int, b: int): int
  {
    if a <= b then a else b
  }

  /** Is `p` a position of some beat under `subdivision` sub-beats per beat? */
  predicate ValidPos(p: Pos, subdivision: int)
  {
    1 <= p.beat && 1 <= p.sub <= subdivision
  }

  /** Is `p` a column of the grid of `beats` beats of `subdivision` sub-beats? */
  predicate InGrid(p: Pos, beats: int, subdivision: int)
  {
    1 <= p.beat <= beats && 1 <= p.sub <= subdivision
  }

  /** The keys of one drum's row in a grid. */
  function GridKeys(beats: int, subdivision: int): set<Pos>
  {
    set b, s | 1 <= b <= beats && 1 <= s <= subdivision :: Pos(b, s)
  }

  /** The 0-based step that a position occupies (the inverse of StepToPosition). */
  function PositionToStep(p: Pos, subdivision: int): int
  {
    (p.beat - 1) * subdivision + (p.sub - 1)
  }

  /** stepToPosition: 0-based step to 1-based (beat, sub-beat). */
  function StepToPosition(step: nat, subdivision: int): (p: Pos)
    requires subdivision >= 1
    ensures ValidPos(p, subdivision)
  {
    Pos(step / subdivision + 1, step % subdivision + 1)
  }

  /** PositionToStep undoes StepToPosition. */
  lemma StepToPositionInverse(step: nat, subdivision: int)
    requires subdivision >= 1
    ensures PositionToStep(StepToPosition(step, subdivision), subdivision) == step
  {
  }

  /** Division by a positive divisor has a unique quotient and remainder. */
  lemma DivModUnique(q: int, m: int, d: int)
    requires d >= 1 && q >= 0 && 0 <= m < d
    ensures (q * d + m) / d == q
    ensures (q * d + m) % d == m
  {
    var n := q * d + m;
    var q' := n / d;
    var m' := n % d;
    assert n == q' * d + m';
    assert (q - q') * d == m' - m;
    MulSign(q - q', d);
  }

  lemma MulSign(x: int, d: int)
    requires d >= 1
    ensures x >= 1 ==> x * d >= d
    ensures x <= -1 ==> x * d <= -d
  {
    if x >= 1 {
      MulMono(1, x, d);
    } else if x <= -1 {
      MulMono(x, -1, d);
    }
  }

  lemma MulMono(a: int, b: int, d: int)
    requires a <= b && d >= 0
    ensures a * d <= b * d
  {
    assert b * d - a * d == (b - a) * d;
  }

  /** PositionRoundTrip for any position that is valid. */
  lemma ValidPosRoundTrip(p: Pos, subdivision: int)
    requires subdivision >= 1
    ensures ValidPos(p, subdivision) ==>
      PositionToStep(p, subdivision) >= 0 && StepToPosition(PositionToStep(p, subdivision), subdivision) == p
  {
    if ValidPos(p, subdivision) {
      PositionRoundTrip(p, subdivision);
    }
  }

  /** Every valid position is reached by exactly the step PositionToStep names. */
  lemma PositionRoundTrip(p: Pos, subdivision: int)
    requires ValidPos(p, subdivision)
    ensures PositionToStep(p, subdivision) >= 0
    ensures StepToPosition(PositionToStep(p, subdivision), subdivision) == p
  {
    MulMono(0, p.beat - 1, subdivision);
    DivModUnique(p.beat - 1, p.sub - 1, subdivision);
  }

  /** StepToPosition is injective: distinct steps are distinct columns. */
  lemma StepToPositionInjective(i: nat, j: nat, subdivision: int)
    requires subdivision >= 1
    requires StepToPosition(i, subdivision) == StepToPosition(j, subdivision)
    ensures i == j
  {
    StepToPositionInverse(i, subdivision);
    StepToPositionInverse(j, subdivision);
  }

  /** A valid position lies in the grid exactly when its step is below beats*subdivision. */
  lemma InGridIffStepBelow(p: Pos, beats: int, subdivision: int)
    requires ValidPos(p, subdivision)
    ensures InGrid(p, beats, subdivision) <==> PositionToStep(p, subdivision) < beats * subdivision
  {
    if p.beat <= beats {
      MulMono(p.beat - 1, beats - 1, subdivision);
      assert (beats - 1) * subdivision + subdivision == beats * subdivision;
    } else {
      MulMono(beats, p.beat - 1, subdivision);
    }
  }

  /** For a step inside one measure, the beat is between 1 and `beats`. */
  lemma StepInMeasure(step: nat, beats: int, subdivision: int)
    requires subdivision >= 1
    ensures step < beats * subdivision <==> InGrid(StepToPosition(step, subdivision), beats, subdivision)
  {
    StepToPositionInverse(step, subdivision);
    InGridIffStepBelow(StepToPosition(step, subdivision), beats, subdivision);
  }

  /** One beat's sub-beat keys. */
  function BeatRow(b: int, subdivision: int): set<Pos>
  {
    set s | 1 <= s <= subdivision :: Pos(b, s)
  }

  lemma {:induction false} BeatRowSize(b: int, subdivision: nat)
    ensures |BeatRow(b, subdivision)| == subdivision
  {
    if subdivision > 0 {
      BeatRowSize(b, subdivision - 1);
      assert BeatRow(b, subdivision) == BeatRow(b, subdivision - 1) + {Pos(b, subdivision)};
    } else {
      assert BeatRow(b, subdivision) == {};
    }
  }

  /** A grid of `beats` beats of `subdivision` sub-beats has exactly beats*subdivision keys. */
  lemma {:induction false} GridKeysSize(beats: nat, subdivision: nat)
    ensures |GridKeys(beats, subdivision)| == beats * subdivision
  {
    if beats > 0 {
      GridKeysSize(beats - 1, subdivision);
      BeatRowSize(beats, subdivision);
      assert GridKeys(beats, subdivision) == GridKeys(beats - 1, subdivision) + BeatRow(beats, subdivision);
      assert GridKeys(beats - 1, subdivision) !! BeatRow(beats, subdivision);
      assert beats * subdivision == (beats - 1) * subdivision + subdivision;
    } else {
      assert GridKeys(beats, subdivision) == {};
    }
  }

  /** The step conversion of the position-preserving rebuild: keep the 0-based
      beat, keep the 0-based sub-beat when it still fits, else use the last one. */
  function RebuildStep(step: nat, oldSubdivision: int, newSubdivision: int): (r: nat)
    requires oldSubdivision >= 1 && newSubdivision >= 1
    ensures StepToPosition(r, newSubdivision).beat == StepToPosition(step, oldSubdivision).beat
    ensures StepToPosition(r, newSubdivision).sub
            == Min(StepToPosition(step, oldSubdivision).sub, newSubdivision)
  {
    var beat0 := step / oldSubdivision;
    var sub0 := Min(step % oldSubdivision, newSubdivision - 1);
    MulMono(0, beat0, newSubdivision);
    DivModUnique(beat0, sub0, newSubdivision);
    beat0 * newSubdivision + sub0
  }

  /** A step inside the old measure is converted to a step inside the new one. */
  lemma RebuildStaysInMeasure(step: nat, beats: int, oldSubdivision: int, newSubdivision: int)
    requires oldSubdivision >= 1 && newSubdivision >= 1
    requires step < beats * oldSubdivision
    ensures RebuildStep(step, oldSubdivision, newSubdivision) < beats * newSubdivision
  {
    StepInMeasure(step, beats, oldSubdivision);
    StepInMeasure(RebuildStep(step, oldSubdivision, newSubdivision), beats, newSubdivision);
  }

  /** With the same subdivision on both sides the conversion is the identity. */
  lemma RebuildSameSubdivision(step: nat, subdivision: int)
    requires subdivision >= 1
    ensures RebuildStep(step, subdivision, subdivision) == step
  {
    StepToPositionInjective(RebuildStep(step, subdivision, subdivision), step, subdivision);
  }

  // ---- Text form of keys ----

  predicate SingleDigit(p: Pos)
  {
    0 <= p.beat <= 9 && 0 <= p.sub <= 9
  }

  predicate IsDigit(c: char)
  {
    '0' <= c <= '9'
  }

  function DigitChar(d: int): char
    requires 0 <= d <= 9
  {
    (('0' as int) + d) as char
  }

  function DigitValue(c: char): int
  {
    c as int - '0' as int
  }

  /** The key "beat.sub" of a position whose fields are single decimal digits. */
  function KeyText(p: Pos): (s: string)
    requires SingleDigit(p)
    ensures |s| == 3 && s[1] == '.' && IsDigit(s[0]) && IsDigit(s[2])
  {
    [DigitChar(p.beat), '.', DigitChar(p.sub)]
  }

  /** Reads back a key "d.d" (the beat before the dot, the sub-beat after it). */
  function ParseKey(s: string): (r: Option<Pos>)
    ensures r.Some? <==> |s| == 3 && IsDigit(s[0]) && s[1] == '.' && IsDigit(s[2])
    ensures r.Some? ==> SingleDigit(r.value)
  {
    if |s| == 3 && IsDigit(s[0]) && s[1] == '.' && IsDigit(s[2]) then
      Some(Pos(DigitValue(s[0]), DigitValue(s[2])))
    else
      None
  }

  lemma KeyTextRoundTrip(p: Pos)
    requires SingleDigit(p)
    ensures ParseKey(KeyText(p)) == Some(p)
  {
  }

  lemma ParseKeyRoundTrip(s: string)
    requires ParseKey(s).Some?
    ensures KeyText(ParseKey(s).value) == s
  {
    var t := KeyText(ParseKey(s).value);
    assert t[0] == s[0] && t[1] == s[1] && t[2] == s[2];
  }

  /** Lexicographic order of positions: by beat, then by sub-beat. */
  predicate PosLess(a: Pos, b: Pos)
  {
    a.beat < b.beat || (a.beat == b.beat && a.sub < b.sub)
  }

  /** JavaScript's default string order: code unit by code unit, a proper prefix first. */
  predicate TextLess(a: string, b: string)
    decreases |a|
  {
    if |a| == 0 then |b| > 0
    else if |b| == 0 then false
    else if a[0] != b[0] then a[0] < b[0]
    else TextLess(a[1..], b[1..])
  }

  /** On single-digit keys, sorting the text keys and sorting the positions agree. */
  lemma KeyOrderAgrees(a: Pos, b: Pos)
    requires SingleDigit(a) && SingleDigit(b)
    ensures TextLess(KeyText(a), KeyText(b)) <==> PosLess(a, b)
  {
    var x, y := KeyText(a), KeyText(b);
    if x[0] == y[0] {
      assert x[1..][0] == y[1..][0];
      assert x[1..][1..] == [x[2]] && y[1..][1..] == [y[2]];
      assert TextLess([x[2]], [y[2]]) <==> x[2] < y[2] by {
        assert [x[2]][1..] == [] && [y[2]][1..] == [];
      }
    }
  }
}

=== FILE: drum_grid.dfy ===
/** The grid view's predicates: which key each column shows, which column is
    highlighted as the current step, which header shows an accent, which
    headers carry a beat number, and what a header click dispatches. */
module DrumGrid {
  import opened BeatCalculus
  import opened PatternStore
  import opened AudioEngine

  /** getBeatPosition: the key of column i; the view and the engine use one mapping. */
  function GetBeatPosition(i: nat, subdivision: int): (p: Pos)
    requires subdivision >= 1
    ensures p == StepToPosition(i, subdivision)
    ensures ValidPos(p, subdivision)
  {
    Pos(i / subdivision + 1, i % subdivision + 1)
  }

  /** The number of columns, beatsPerMeasure * subdivision (none when that is not positive). */
  function ColumnCount(beats: int, subdivision: int): nat
  {
    if beats * subdivision > 0 then beats * subdivision else 0
  }

  /** The keys of the columns, left to right. */
  function Columns(beats: int, subdivision: int): (r: seq<Pos>)
    requires subdivision >= 1
    ensures |r| == ColumnCount(beats, subdivision)
    ensures forall i :: 0 <= i < |r| ==> r[i] == GetBeatPosition(i, subdivision)
  {
    seq(ColumnCount(beats, subdivision), i requires 0 <= i => GetBeatPosition(i, subdivision))
  }

  /** The columns are pairwise distinct and show exactly the grid's keys. */
  lemma ColumnsCoverGrid(beats: int, subdivision: int)
    requires subdivision >= 1
    ensures var cols := Columns(beats, subdivision);
      && (forall i, j :: 0 <= i < j < |cols| ==> cols[i] != cols[j])
      && (forall k :: k in cols <==> k in GridKeys(beats, subdivision))
  {
    var cols := Columns(beats, subdivision);
    forall i, j | 0 <= i < j < |cols| ensures cols[i] != cols[j] {
      if cols[i] == cols[j] {
        StepToPositionInjective(i, j, subdivision);
      }
    }
    forall k ensures k in cols <==> k in GridKeys(beats, subdivision) {
      if k in cols {
        var i :| 0 <= i < |cols| && cols[i] == k;
        StepInMeasure(i, beats, subdivision);
      }
      if k in GridKeys(beats, subdivision) {
        PositionRoundTrip(k, subdivision);
        InGridIffStepBelow(k, beats, subdivision);
        var i := PositionToStep(k, subdivision);
        assert cols[i] == k;
      }
    }
  }

  /** isCurrentStep: highlighted only while playing, and only the column whose
      position is the displayed (beat, sub-beat); that column is the step the
      displayed position names, and no column is highlighted when the
      displayed position is not a valid one. */
  function IsCurrentStep(i: nat, subdivision: int, isPlaying: bool, currentBeat: int, currentSubBeat: int): (r: bool)
    requires subdivision >= 1
    ensures r ==> isPlaying && i == PositionToStep(Pos(currentBeat, currentSubBeat), subdivision)
    ensures (isPlaying && ValidPos(Pos(currentBeat, currentSubBeat), subdivision)
             && i == PositionToStep(Pos(currentBeat, currentSubBeat), subdivision)) ==> r
    ensures !ValidPos(Pos(currentBeat, currentSubBeat), subdivision) ==> !r
  {
    var shown := Pos(currentBeat, currentSubBeat);
    StepToPositionInverse(i, subdivision);
    ValidPosRoundTrip(shown, subdivision);
    isPlaying && GetBeatPosition(i, subdivision) == shown
  }

  /** At most one column is highlighted. */
  lemma AtMostOneCurrentStep(i: nat, j: nat, subdivision: int, isPlaying: bool, currentBeat: int, currentSubBeat: int)
    requires subdivision >= 1
    requires IsCurrentStep(i, subdivision, isPlaying, currentBeat, currentSubBeat)
    requires IsCurrentStep(j, subdivision, isPlaying, currentBeat, currentSubBeat)
    ensures i == j
  {
    StepToPositionInjective(i, j, subdivision);
  }

  /** After a normal tick of a playing transport, the highlighted column is
      exactly the step that was just played. */
  lemma TickHighlightsPlayedStep(t: Transport, cfg: Live, i: nat)
    requires cfg.subdivision >= 1 && t.measure != 0 && t.isPlaying
    ensures var r := PlayTick(t, cfg).t;
      IsCurrentStep(i, cfg.subdivision, r.isPlaying, r.currentBeat, r.currentSubBeat) <==> i == t.step
  {
    var r := PlayTick(t, cfg).t;
    if IsCurrentStep(i, cfg.subdivision, r.isPlaying, r.currentBeat, r.currentSubBeat) {
      StepToPositionInjective(i, t.step, cfg.subdivision);
    }
  }

  /** The count-in never highlights a column: the transport is not playing yet. */
  lemma CountInHighlightsNothing(t: Transport, cfg: Live, i: nat)
    requires cfg.subdivision >= 1 && t.measure == 0 && !t.isPlaying
    requires t.step < TotalSteps(cfg) - 1
    ensures var r := CountInTick(t, cfg).t;
      !IsCurrentStep(i, cfg.subdivision, r.isPlaying, r.currentBeat, r.currentSubBeat)
  {
  }

  /** The last count-in tick already sets the transport playing, so the last
      column is highlighted while the count-in position is still displayed. */
  lemma CountInLastTickHighlightsLastColumn(t: Transport, cfg: Live, i: nat)
    requires cfg.subdivision >= 1 && t.measure == 0
    requires t.step == TotalSteps(cfg) - 1
    ensures var r := CountInTick(t, cfg).t;
      IsCurrentStep(i, cfg.subdivision, r.isPlaying, r.currentBeat, r.currentSubBeat) <==> i == t.step
  {
    var r := CountInTick(t, cfg).t;
    if IsCurrentStep(i, cfg.subdivision, r.isPlaying, r.currentBeat, r.currentSubBeat) {
      StepToPositionInjective(i, t.step, cfg.subdivision);
    }
  }

  /** isColumnAccented: does some roster drum have an accent at key k? A drum
      without a cell there counts as unaccented. */
  function IsColumnAccented(p: Pattern, drums: seq<DrumId>, k: Pos): (r: bool)
    ensures r <==> AnyAccented(p, drums, k)
    decreases |drums|
  {
    if |drums| == 0 then false
    else
      var rest := IsColumnAccented(p, drums[1..], k);
      assert AnyAccented(p, drums, k) <==> CellAt(p, drums[0], k).accent || AnyAccented(p, drums[1..], k) by {
        if AnyAccented(p, drums[1..], k) {
          var i :| 0 <= i < |drums[1..]| && CellAt(p, drums[1..][i], k).accent;
          assert drums[i + 1] == drums[1..][i];
        }
        if AnyAccented(p, drums, k) && !CellAt(p, drums[0], k).accent {
          var i :| 0 <= i < |drums| && CellAt(p, drums[i], k).accent;
          assert drums[1..][i - 1] == drums[i];
        }
      }
      CellAt(p, drums[0], k).accent || rest
  }

  /** isBeatAccented: the same question for the first sub-beat of beat b. */
  function IsBeatAccented(p: Pattern, drums: seq<DrumId>, b: int): (r: bool)
    ensures r <==> exists i :: 0 <= i < |drums| && CellAt(p, drums[i], Pos(b, 1)).accent
  {
    IsColumnAccented(p, drums, Pos(b, 1))
  }

  /** The header label: the beat number on a beat's first column, nothing elsewhere. */
  function HeaderLabel(i: nat, subdivision: int): (r: Option<int>)
    requires subdivision >= 1
    ensures r.Some? <==> GetBeatPosition(i, subdivision).sub == 1
    ensures r.Some? ==> r.value == GetBeatPosition(i, subdivision).beat
  {
    var p := GetBeatPosition(i, subdivision);
    if p.sub == 1 then Some(p.beat) else None
  }

  /** Column i is labelled b exactly when it is the first column of beat b. */
  lemma HeaderLabelMarksBeatStarts(i: nat, subdivision: int, b: int)
    requires subdivision >= 1
    ensures HeaderLabel(i, subdivision) == Some(b) <==> b >= 1 && i == (b - 1) * subdivision
  {
    StepToPositionInverse(i, subdivision);
    if b >= 1 && i == (b - 1) * subdivision {
      PositionRoundTrip(Pos(b, 1), subdivision);
    }
  }

  /** A header click dispatches the column-accent toggle for that column's key. */
  function HeaderClick(p: Pattern, drums: seq<DrumId>, i: nat, subdivision: int): (r: Pattern)
    requires subdivision >= 1
    ensures forall d :: d in drums ==>
      CellAt(r, d, GetBeatPosition(i, subdivision)).accent
        == !IsColumnAccented(p, drums, GetBeatPosition(i, subdivision))
    ensures forall d, k :: !(d in drums && k == GetBeatPosition(i, subdivision)) ==> CellAt(r, d, k) == CellAt(p, d, k)
    ensures forall d, k :: CellAt(r, d, k).enabled == CellAt(p, d, k).enabled
  {
    ToggleColumnAccent(p, drums, GetBeatPosition(i, subdivision))
  }

  /** With a non-empty roster, a header click flips that header's accent indicator. */
  lemma HeaderClickFlipsIndicator(p: Pattern, drums: seq<DrumId>, i: nat, subdivision: int)
    requires subdivision >= 1 && |drums| > 0
    ensures var k := GetBeatPosition(i, subdivision);
      IsColumnAccented(HeaderClick(p, drums, i, subdivision), drums, k) == !IsColumnAccented(p, drums, k)
  {
    var k := GetBeatPosition(i, subdivision);
    var r := HeaderClick(p, drums, i, subdivision);
    assert drums[0] in drums;
    if !IsColumnAccented(p, drums, k) {
      assert CellAt(r, drums[0], k).accent;
    }
  }
}

=== FILE: drum_machine.dfy ===
/** The drum-machine state: the user-facing parameters and the two live
    patterns, with preset loading and the four cell-editing intents. Each intent
    edits the main or the fill pattern and nothing else. */
module DrumMachine {
  import opened BeatCalculus
  import opened PatternStore

  datatype MachineState = MachineState(
    isPlaying: bool,
    currentBeat: int,
    currentMeasure: int,
    currentSubBeat: int,
    bpm: int,
    measures: int,
    beatsPerMeasure: int,
    subdivision: int,
    currentKit: string,
    currentPreset: string,
    fillEnabled: bool,
    countInEnabled: bool,
    pattern: Pattern,
    fillPattern: Pattern,
    accentVolumeReduction: int)

  /** The pattern an intent addresses: the fill when `isFill`, else the main one. */
  function Selected(s: MachineState, isFill: bool): Pattern
  {
    if isFill then s.fillPattern else s.pattern
  }

  /** Replace the addressed pattern; every other field, including the other
      pattern, is kept. */
  function WithSelected(s: MachineState, isFill: bool, p: Pattern): (r: MachineState)
    ensures Selected(r, isFill) == p
    ensures Selected(r, !isFill) == Selected(s, !isFill)
    ensures r.(pattern := s.pattern, fillPattern := s.fillPattern) == s
  {
    if isFill then s.(fillPattern := p) else s.(pattern := p)
  }

  /** toggleDrum on the addressed pattern. */
  function ToggleDrumIn(s: MachineState, d: DrumId, k: Pos, isFill: bool): (r: MachineState)
    ensures CellAt(Selected(r, isFill), d, k).enabled == !CellAt(Selected(s, isFill), d, k).enabled
    ensures CellAt(Selected(r, isFill), d, k).accent == CellAt(Selected(s, isFill), d, k).accent
    ensures SameElsewhere(Selected(s, isFill), Selected(r, isFill), d, k)
    ensures Selected(r, !isFill) == Selected(s, !isFill)
    ensures r.(pattern := s.pattern, fillPattern := s.fillPattern) == s
  {
    WithSelected(s, isFill, ToggleDrum(Selected(s, isFill), d, k))
  }

  /** toggleAccent on the addressed pattern. */
  function ToggleAccentIn(s: MachineState, d: DrumId, k: Pos, isFill: bool): (r: MachineState)
    ensures CellAt(Selected(r, isFill), d, k).accent == !CellAt(Selected(s, isFill), d, k).accent
    ensures CellAt(Selected(r, isFill), d, k).enabled == CellAt(Selected(s, isFill), d, k).enabled
    ensures SameElsewhere(Selected(s, isFill), Selected(r, isFill), d, k)
    ensures Selected(r, !isFill) == Selected(s, !isFill)
    ensures r.(pattern := s.pattern, fillPattern := s.fillPattern) == s
  {
    WithSelected(s, isFill, ToggleAccent(Selected(s, isFill), d, k))
  }

  /** toggleColumnAccent on the addressed pattern, over the configured roster. */
  function ToggleColumnAccentIn(s: MachineState, drums: seq<DrumId>, k: Pos, isFill: bool): (r: MachineState)
    ensures forall d :: d in drums ==>
      CellAt(Selected(r, isFill), d, k).accent == !AnyAccented(Selected(s, isFill), drums, k)
    ensures forall d, k' :: CellAt(Selected(r, isFill), d, k').enabled == CellAt(Selected(s, isFill), d, k').enabled
    ensures forall d, k' :: !(d in drums && k' == k) ==>
      CellAt(Selected(r, isFill), d, k') == CellAt(Selected(s, isFill), d, k')
    ensures Selected(r, !isFill) == Selected(s, !isFill)
    ensures r.(pattern := s.pattern, fillPattern := s.fillPattern) == s
  {
    WithSelected(s, isFill, ToggleColumnAccent(Selected(s, isFill), drums, k))
  }

  /** toggleBeatAccent on the addressed pattern, over the configured roster. */
  function ToggleBeatAccentIn(s: MachineState, drums: seq<DrumId>, b: int, isFill: bool): (r: MachineState)
    ensures forall d :: d in drums ==>
      CellAt(Selected(r, isFill), d, Pos(b, 1)).accent == !AnyAccented(Selected(s, isFill), drums, Pos(b, 1))
    ensures forall d :: d in drums ==> Present(Selected(r, isFill), d, Pos(b, 1))
    ensures forall d, k :: !(d in drums && k == Pos(b, 1)) ==>
      CellAt(Selected(r, isFill), d, k) == CellAt(Selected(s, isFill), d, k)
    ensures forall d, k :: CellAt(Selected(r, isFill), d, k).enabled == CellAt(Selected(s, isFill), d, k).enabled
    ensures Selected(r, !isFill) == Selected(s, !isFill)
    ensures r.(pattern := s.pattern, fillPattern := s.fillPattern) == s
  {
    WithSelected(s, isFill, ToggleBeatAccent(Selected(s, isFill), drums, b))
  }

  /** `presets.find(p => p.id === id)`: the first preset with that id. */
  function FindPreset(presets: seq<Preset>, id: string): (r: Option<Preset>)
    ensures r.None? <==> forall i :: 0 <= i < |presets| ==> presets[i].id != id
    ensures r.Some? ==> r.value.id == id
    ensures r.Some? ==> exists i :: 0 <= i < |presets| && presets[i] == r.value
                                    && (forall j :: 0 <= j < i ==> presets[j].id != id)
    decreases |presets|
  {
    if |presets| == 0 then None
    else if presets[0].id == id then Some(presets[0])
    else
      var r := FindPreset(presets[1..], id);
      if r.Some? then
        var i :| 0 <= i < |presets[1..]| && presets[1..][i] == r.value
                 && (forall j :: 0 <= j < i ==> presets[1..][j].id != id);
        assert presets[i + 1] == r.value;
        r
      else
        r
  }

  /** loadPreset: an unknown id changes nothing; otherwise the meter, the measure
      count and both patterns come from the preset, and the tempo is kept. */
  function LoadPreset(s: MachineState, drums: seq<DrumId>, presets: seq<Preset>, id: string): (r: MachineState)
    ensures (forall i :: 0 <= i < |presets| ==> presets[i].id != id) ==> r == s
    ensures FindPreset(presets, id).Some? ==>
      var p := FindPreset(presets, id).value;
      && r.currentPreset == id
      && r.beatsPerMeasure == p.beatsPerMeasure
      && r.subdivision == p.subdivision
      && r.measures == p.measures
      && r.pattern == CreatePatternFromPreset(drums, p, false)
      && r.fillPattern == CreatePatternFromPreset(drums, p, true)
      && r.(currentPreset := s.currentPreset, beatsPerMeasure := s.beatsPerMeasure, subdivision := s.subdivision,
            measures := s.measures, pattern := s.pattern, fillPattern := s.fillPattern) == s
  {
    match FindPreset(presets, id)
    case None => s
    case Some(p) =>
      s.(currentPreset := id,
         beatsPerMeasure := p.beatsPerMeasure,
         subdivision := p.subdivision,
         measures := p.measures,
         pattern := CreatePatternFromPreset(drums, p, false),
         fillPattern := CreatePatternFromPreset(drums, p, true))
  }

  /** The pattern invariant: exactly the roster drums, each with exactly the grid's keys. */
  ghost predicate SizedTo(p: Pattern, drums: seq<DrumId>, beats: int, subdivision: int)
  {
    && (forall d :: d in p <==> d in drums)
    && (forall d :: d in p ==> p[d].Keys == GridKeys(beats, subdivision))
  }

  /** After a successful load both patterns are sized to the loaded meter. */
  lemma LoadPresetSizesPatterns(s: MachineState, drums: seq<DrumId>, presets: seq<Preset>, id: string)
    requires FindPreset(presets, id).Some?
    ensures var r := LoadPreset(s, drums, presets, id);
      SizedTo(r.pattern, drums, r.beatsPerMeasure, r.subdivision)
      && SizedTo(r.fillPattern, drums, r.beatsPerMeasure, r.subdivision)
  {
  }

  /** A pattern that differs from a sized one only by cells of roster drums at a
      grid key k, all present, is still sized. */
  lemma PresenceKeepsSize(p: Pattern, r: Pattern, drums: seq<DrumId>, beats: int, subdivision: int, k: Pos)
    requires SizedTo(p, drums, beats, subdivision)
    requires k in GridKeys(beats, subdivision)
    requires forall d :: d in drums ==> Present(r, d, k)
    requires forall d, k' :: !(d in drums && k' == k) ==> Present(r, d, k') == Present(p, d, k')
    requires forall d :: d in r ==> d in p || d in drums
    ensures SizedTo(r, drums, beats, subdivision)
  {
    forall d | d in drums ensures d in r {
      assert Present(r, d, k);
    }
    forall d | d in r ensures d in drums && r[d].Keys == GridKeys(beats, subdivision) {
      forall k' ensures k' in r[d] <==> k' in p[d] {
        assert Present(r, d, k') <==> Present(p, d, k');
      }
    }
  }

  /** Edits by a roster drum at a grid key keep a pattern sized to its grid. */
  lemma TogglesKeepSize(p: Pattern, drums: seq<DrumId>, beats: int, subdivision: int, d: DrumId, k: Pos)
    requires SizedTo(p, drums, beats, subdivision)
    requires d in drums && k in GridKeys(beats, subdivision)
    ensures SizedTo(ToggleDrum(p, d, k), drums, beats, subdivision)
    ensures SizedTo(ToggleAccent(p, d, k), drums, beats, subdivision)
    ensures SizedTo(ToggleColumnAccent(p, drums, k), drums, beats, subdivision)
  {
    PresenceKeepsSize(p, ToggleColumnAccent(p, drums, k), drums, beats, subdivision, k);
    assert forall d' :: d' in drums ==> Present(p, d', k);
    PresenceKeepsSize(p, ToggleDrum(p, d, k), drums, beats, subdivision, k);
    PresenceKeepsSize(p, ToggleAccent(p, d, k), drums, beats, subdivision, k);
  }
}

=== FILE: pattern_store.dfy ===
/** The pattern store: a drum pattern maps each drum to a row that maps grid
    positions to cells. Cells are updated copy-on-write; a missing drum or
    position reads as the default cell. */
module PatternStore {
  import opened BeatCalculus

  type DrumId = string

  datatype Cell = Cell(enabled: bool, accent: bool)

  const DefaultCell := Cell(false, false)

  type Row = map<Pos, Cell>

  type Pattern = map<DrumId, Row>

  /** A preset: meter, measure count, strong beats to accent, and sparse lists of
      enabled positions per drum for the main pattern and for the fill. */
  datatype Preset = Preset(
    id: string,
    name: string,
    beatsPerMeasure: int,
    subdivision: int,
    measures: int,
    accents: seq<int>,
    pattern: map<DrumId, seq<Pos>>,
    fill: map<DrumId, seq<Pos>>)

  predicate Present(p: Pattern, d: DrumId, k: Pos)
  {
    d in p && k in p[d]
  }

  /** The cell shown and played at (d, k): the stored one, or the default when
      the drum or the position is missing. */
  function CellAt(p: Pattern, d: DrumId, k: Pos): (c: Cell)
    ensures Present(p, d, k) ==> c == p[d][k]
    ensures !Present(p, d, k) ==> !c.enabled && !c.accent
  {
    if Present(p, d, k) then p[d][k] else DefaultCell
  }

  function RowOf(p: Pattern, d: DrumId): Row
  {
    if d in p then p[d] else map[]
  }

  /** Copy-on-write store of one cell; the drum entry is created if missing. */
  function WithCell(p: Pattern, d: DrumId, k: Pos, c: Cell): (r: Pattern)
    ensures r.Keys == p.Keys + {d}
    ensures r[d].Keys == RowOf(p, d).Keys + {k}
    ensures r[d][k] == c
    ensures forall d' :: d' in p && d' != d ==> r[d'] == p[d']
    ensures forall k' :: k' in RowOf(p, d) && k' != k ==> r[d][k'] == p[d][k']
  {
    p[d := RowOf(p, d)[k := c]]
  }

  /** Everything outside (d, k) is untouched, both in presence and in contents. */
  ghost predicate SameElsewhere(p: Pattern, r: Pattern, d: DrumId, k: Pos)
  {
    forall d', k' :: (d', k') != (d, k) ==>
      Present(r, d', k') == Present(p, d', k') && CellAt(r, d', k') == CellAt(p, d', k')
  }

  lemma WithCellElsewhere(p: Pattern, d: DrumId, k: Pos, c: Cell)
    ensures SameElsewhere(p, WithCell(p, d, k, c), d, k)
  {
  }

  // ---- single-cell toggles ----

  /** toggleDrum: flip `enabled` of the cell at (d, k), creating it as the default first. */
  function ToggleDrum(p: Pattern, d: DrumId, k: Pos): (r: Pattern)
    ensures r.Keys == p.Keys + {d}
    ensures Present(r, d, k)
    ensures CellAt(r, d, k).enabled == !CellAt(p, d, k).enabled
    ensures CellAt(r, d, k).accent == CellAt(p, d, k).accent
    ensures SameElsewhere(p, r, d, k)
  {
    var c := CellAt(p, d, k);
    WithCellElsewhere(p, d, k, c.(enabled := !c.enabled));
    WithCell(p, d, k, c.(enabled := !c.enabled))
  }

  /** toggleAccent: flip `accent` of the cell at (d, k), creating it as the default first. */
  function ToggleAccent(p: Pattern, d: DrumId, k: Pos): (r: Pattern)
    ensures r.Keys == p.Keys + {d}
    ensures Present(r, d, k)
    ensures CellAt(r, d, k).accent == !CellAt(p, d, k).accent
    ensures CellAt(r, d, k).enabled == CellAt(p, d, k).enabled
    ensures SameElsewhere(p, r, d, k)
  {
    var c := CellAt(p, d, k);
    WithCellElsewhere(p, d, k, c.(accent := !c.accent));
    WithCell(p, d, k, c.(accent := !c.accent))
  }

  /** Two patterns that show the same cell everywhere. */
  ghost predicate SameView(p: Pattern, q: Pattern)
  {
    forall d, k :: CellAt(p, d, k) == CellAt(q, d, k)
  }

  /** Toggling `enabled` twice restores every cell; when the cell already existed
      the pattern itself comes back unchanged. */
  lemma ToggleDrumTwice(p: Pattern, d: DrumId, k: Pos)
    ensures SameView(ToggleDrum(ToggleDrum(p, d, k), d, k), p)
    ensures Present(p, d, k) ==> ToggleDrum(ToggleDrum(p, d, k), d, k) == p
  {
    var r := ToggleDrum(ToggleDrum(p, d, k), d, k);
    if Present(p, d, k) {
      assert r[d] == p[d];
      assert r == p;
    }
  }

  /** Toggling `accent` twice restores every cell; when the cell already existed
      the pattern itself comes back unchanged. */
  lemma ToggleAccentTwice(p: Pattern, d: DrumId, k: Pos)
    ensures SameView(ToggleAccent(ToggleAccent(p, d, k), d, k), p)
    ensures Present(p, d, k) ==> ToggleAccent(ToggleAccent(p, d, k), d, k) == p
  {
    var r := ToggleAccent(ToggleAccent(p, d, k), d, k);
    if Present(p, d, k) {
      assert r[d] == p[d];
      assert r == p;
    }
  }

  // ---- group accent toggles ----

  /** Is any drum of the roster accented at k? (the `drums.some(...)` of the source) */
  predicate AnyAccented(p: Pattern, drums: seq<DrumId>, k: Pos)
    ensures AnyAccented(p, drums, k) <==> exists d :: d in drums && CellAt(p, d, k).accent
    ensures !AnyAccented(p, drums, k) ==> forall d :: d in drums && Present(p, d, k) ==> !p[d][k].accent
  {
    exists i :: 0 <= i < |drums| && CellAt(p, drums[i], k).accent
  }

  /** Set the accent of every roster drum at k to v, creating missing cells, in roster order. */
  function SetAccents(p: Pattern, drums: seq<DrumId>, k: Pos, v: bool): (r: Pattern)
    ensures forall d :: d in r <==> d in p || d in drums
    ensures forall d :: d in drums ==> Present(r, d, k)
    ensures forall d :: d in drums ==> CellAt(r, d, k) == Cell(CellAt(p, d, k).enabled, v)
    ensures forall d, k' :: !(d in drums && k' == k) ==>
      Present(r, d, k') == Present(p, d, k') && CellAt(r, d, k') == CellAt(p, d, k')
    decreases |drums|
  {
    if |drums| == 0 then p
    else
      var c := CellAt(p, drums[0], k);
      var p' := WithCell(p, drums[0], k, c.(accent := v));
      WithCellElsewhere(p, drums[0], k, c.(accent := v));
      SetAccents(p', drums[1..], k, v)
  }

  /** toggleColumnAccent: if any roster drum is accented at k, clear every roster
      accent at k, otherwise set them all. `enabled` never changes. */
  function ToggleColumnAccent(p: Pattern, drums: seq<DrumId>, k: Pos): (r: Pattern)
    ensures forall d :: d in r <==> d in p || d in drums
    ensures forall d :: d in drums ==> Present(r, d, k)
    ensures forall d :: d in drums ==>
      CellAt(r, d, k).accent == !AnyAccented(p, drums, k) && CellAt(r, d, k).enabled == CellAt(p, d, k).enabled
    ensures forall d, k' :: !(d in drums && k' == k) ==>
      Present(r, d, k') == Present(p, d, k') && CellAt(r, d, k') == CellAt(p, d, k')
  {
    SetAccents(p, drums, k, !AnyAccented(p, drums, k))
  }

  /** toggleBeatAccent: the group toggle on the first sub-beat of beat b only. */
  function ToggleBeatAccent(p: Pattern, drums: seq<DrumId>, b: int): (r: Pattern)
    ensures forall d :: d in drums ==>
      CellAt(r, d, Pos(b, 1)).accent == !AnyAccented(p, drums, Pos(b, 1))
    ensures forall d :: d in drums ==> Present(r, d, Pos(b, 1))
    ensures forall d, k :: !(d in drums && k == Pos(b, 1)) ==> CellAt(r, d, k) == CellAt(p, d, k)
    ensures forall d, k :: CellAt(r, d, k).enabled == CellAt(p, d, k).enabled
  {
    ToggleColumnAccent(p, drums, Pos(b, 1))
  }

  /** All roster accents at k are equal. */
  predicate UniformAccent(p: Pattern, drums: seq<DrumId>, k: Pos)
  {
    forall i, j :: 0 <= i < |drums| && 0 <= j < |drums| ==>
      CellAt(p, drums[i], k).accent == CellAt(p, drums[j], k).accent
  }

  /** After a group toggle all targeted accents agree. */
  lemma ColumnToggleMakesUniform(p: Pattern, drums: seq<DrumId>, k: Pos)
    ensures UniformAccent(ToggleColumnAccent(p, drums, k), drums, k)
  {
    var r := ToggleColumnAccent(p, drums, k);
    forall i, j | 0 <= i < |drums| && 0 <= j < |drums|
      ensures CellAt(r, drums[i], k).accent == CellAt(r, drums[j], k).accent
    {
      assert drums[i] in drums && drums[j] in drums;
    }
  }

  /** The group toggle applied twice sets every targeted accent to the ORIGINAL
      "any accented" value (roster non-empty). */
  lemma ColumnToggleTwice(p: Pattern, drums: seq<DrumId>, k: Pos)
    requires |drums| > 0
    ensures forall d :: d in drums ==>
      CellAt(ToggleColumnAccent(ToggleColumnAccent(p, drums, k), drums, k), d, k).accent == AnyAccented(p, drums, k)
  {
    var r1 := ToggleColumnAccent(p, drums, k);
    assert drums[0] in drums;
    assert CellAt(r1, drums[0], k).accent == !AnyAccented(p, drums, k);
    if !AnyAccented(p, drums, k) {
      assert AnyAccented(r1, drums, k);
    } else {
      forall i | 0 <= i < |drums| ensures !CellAt(r1, drums[i], k).accent {
        assert drums[i] in drums;
      }
    }
  }

  /** The group toggle is not an involution: twice applied it restores every
      targeted cell exactly when the targeted accents were uniform. */
  lemma ColumnToggleTwiceRestoresIffUniform(p: Pattern, drums: seq<DrumId>, k: Pos)
    ensures (forall i :: 0 <= i < |drums| ==>
               CellAt(ToggleColumnAccent(ToggleColumnAccent(p, drums, k), drums, k), drums[i], k)
               == CellAt(p, drums[i], k))
            <==> UniformAccent(p, drums, k)
  {
    var r2 := ToggleColumnAccent(ToggleColumnAccent(p, drums, k), drums, k);
    if |drums| > 0 {
      ColumnToggleTwice(p, drums, k);
      var any := AnyAccented(p, drums, k);
      if UniformAccent(p, drums, k) {
        forall i | 0 <= i < |drums| ensures CellAt(r2, drums[i], k) == CellAt(p, drums[i], k) {
          assert drums[i] in drums;
          if any {
            var w :| 0 <= w < |drums| && CellAt(p, drums[w], k).accent;
          }
        }
      }
      if forall i :: 0 <= i < |drums| ==> CellAt(r2, drums[i], k) == CellAt(p, drums[i], k) {
        forall i, j | 0 <= i < |drums| && 0 <= j < |drums|
          ensures CellAt(p, drums[i], k).accent == CellAt(p, drums[j], k).accent
        {
          assert drums[i] in drums && drums[j] in drums;
        }
      }
    }
  }

  // ---- construction ----

  /** The row whose keys are the first n steps' positions, all default cells,
      built in the source's beat-major, sub-beat-minor loop order. */
  function EmptyRowUpTo(n: nat, subdivision: int): (r: Row)
    requires subdivision >= 1
    ensures forall k :: k in r <==> ValidPos(k, subdivision) && PositionToStep(k, subdivision) < n
    ensures forall k :: k in r ==> r[k] == DefaultCell
    decreases n
  {
    if n == 0 then map[]
    else
      var prev := EmptyRowUpTo(n - 1, subdivision);
      var k := StepToPosition(n - 1, subdivision);
      StepToPositionInverse(n - 1, subdivision);
      assert forall k' :: ValidPos(k', subdivision) && PositionToStep(k', subdivision) == n - 1 ==> k' == k by {
        forall k' | ValidPos(k', subdivision) && PositionToStep(k', subdivision) == n - 1 ensures k' == k {
          PositionRoundTrip(k', subdivision);
        }
      }
      prev[k := DefaultCell]
  }

  /** One drum's empty row: exactly the grid keys, all default cells. */
  function EmptyRow(beats: int, subdivision: int): (r: Row)
    ensures r.Keys == GridKeys(beats, subdivision)
    ensures forall k :: k in r ==> r[k] == DefaultCell
  {
    if subdivision < 1 || beats < 1 then
      assert GridKeys(beats, subdivision) == {};
      map[]
    else
      MulMono(0, beats, subdivision);
      var r := EmptyRowUpTo(beats * subdivision, subdivision);
      assert r.Keys == GridKeys(beats, subdivision) by {
        forall k | k in r ensures k in GridKeys(beats, subdivision) {
          InGridIffStepBelow(k, beats, subdivision);
        }
        forall k | k in GridKeys(beats, subdivision) ensures k in r {
          InGridIffStepBelow(k, beats, subdivision);
        }
      }
      r
  }

  /** createEmptyPattern: every roster drum gets every grid key with the default cell. */
  function CreateEmptyPattern(drums: seq<DrumId>, beats: int, subdivision: int): (r: Pattern)
    ensures forall d :: d in r <==> d in drums
    ensures forall d :: d in r ==> r[d].Keys == GridKeys(beats, subdivision)
    ensures forall d, k :: d in r && k in r[d] ==> r[d][k] == DefaultCell
  {
    map d | d in drums :: EmptyRow(beats, subdivision)
  }

  /** Is position k listed for drum d in the sparse source lists? */
  predicate Listed(source: map<DrumId, seq<Pos>>, d: DrumId, k: Pos)
  {
    d in source && k in source[d]
  }

  /** The preset's accent rule: on the first sub-beat of a strong beat. */
  predicate PresetAccent(k: Pos, accents: seq<int>)
  {
    k.sub == 1 && k.beat in accents
  }

  /** Enable each listed position that exists in the row, applying the accent rule;
      positions not in the row are ignored. */
  function EnableListed(row: Row, positions: seq<Pos>, accents: seq<int>): (r: Row)
    ensures r.Keys == row.Keys
    ensures forall k :: k in r ==>
      r[k] == (if k in positions then Cell(true, PresetAccent(k, accents)) else row[k])
    decreases |positions|
  {
    if |positions| == 0 then row
    else
      var k := positions[0];
      var row' := if k in row then row[k := Cell(true, PresetAccent(k, accents))] else row;
      assert forall k' :: k' in positions <==> k' == k || k' in positions[1..];
      EnableListed(row', positions[1..], accents)
  }

  function VariantSource(preset: Preset, isFill: bool): map<DrumId, seq<Pos>>
  {
    if isFill then preset.fill else preset.pattern
  }

  /** createPatternFromPreset: start empty at the preset's meter, then enable
      listed positions; unknown drums and off-grid positions are ignored. */
  function CreatePatternFromPreset(drums: seq<DrumId>, preset: Preset, isFill: bool): (r: Pattern)
    ensures forall d :: d in r <==> d in drums
    ensures forall d :: d in r ==> r[d].Keys == GridKeys(preset.beatsPerMeasure, preset.subdivision)
    ensures forall d, k :: d in r && k in r[d] ==>
      r[d][k].enabled == Listed(VariantSource(preset, isFill), d, k)
    ensures forall d, k :: d in r && k in r[d] ==>
      (r[d][k].accent <==> r[d][k].enabled && k.sub == 1 && k.beat in preset.accents)
  {
    var empty := CreateEmptyPattern(drums, preset.beatsPerMeasure, preset.subdivision);
    var source := VariantSource(preset, isFill);
    map d | d in empty ::
      if d in source then EnableListed(empty[d], source[d], preset.accents) else empty[d]
  }

  // ---- export to the sparse preset format ----

  predicate StrictlySorted(s: seq<Pos>)
  {
    forall i, j :: 0 <= i < j < |s| ==> PosLess(s[i], s[j])
  }

  /** m is the least element of s. */
  predicate IsLeast(m: Pos, s: set<Pos>)
  {
    m in s && forall k :: k in s && k != m ==> PosLess(m, k)
  }

  lemma {:induction false} LeastExists(s: set<Pos>)
    requires s != {}
    ensures exists m :: IsLeast(m, s)
    decreases |s|
  {
    var x :| x in s;
    if s == {x} {
      assert forall k :: k in s ==> k == x;
      assert IsLeast(x, s);
    } else {
      var s' := s - {x};
      LeastExists(s');
      var m :| IsLeast(m, s');
      if PosLess(x, m) {
        forall k | k in s && k != x ensures PosLess(x, k) {
          assert k in s';
        }
        assert IsLeast(x, s);
      } else {
        forall k | k in s && k != m ensures PosLess(m, k) {
          if k != x {
            assert k in s';
          }
        }
        assert IsLeast(m, s);
      }
    }
  }

  /** The keys of a set in increasing (beat, sub-beat) order. */
  function SortKeys(s: set<Pos>): (r: seq<Pos>)
    ensures forall k :: k in r <==> k in s
    ensures |r| == |s|
    ensures StrictlySorted(r)
    decreases |s|
  {
    if s == {} then []
    else
      LeastExists(s);
      var m :| IsLeast(m, s);
      var rest := SortKeys(s - {m});
      [m] + rest
  }

  function EnabledKeys(row: Row): set<Pos>
  {
    set k | k in row && row[k].enabled
  }

  /** convertPatternToPresetFormat: per drum, its enabled positions in sorted order;
      drums with no enabled cell are omitted. */
  function ConvertPatternToPresetFormat(p: Pattern): (r: map<DrumId, seq<Pos>>)
    ensures forall d :: d in r <==> d in p && exists k :: k in p[d] && p[d][k].enabled
    ensures forall d, k :: d in r ==> (k in r[d] <==> k in p[d] && p[d][k].enabled)
    ensures forall d :: d in r ==> StrictlySorted(r[d])
  {
    assert forall d :: d in p ==> (EnabledKeys(p[d]) != {} <==> exists k :: k in p[d] && p[d][k].enabled) by {
      forall d | d in p ensures EnabledKeys(p[d]) != {} <==> exists k :: k in p[d] && p[d][k].enabled {
        if EnabledKeys(p[d]) != {} {
          var k :| k in EnabledKeys(p[d]);
        }
        if exists k :: k in p[d] && p[d][k].enabled {
          var k :| k in p[d] && p[d][k].enabled;
          assert k in EnabledKeys(p[d]);
        }
      }
    }
    map d | d in p && EnabledKeys(p[d]) != {} :: SortKeys(EnabledKeys(p[d]))
  }

  /** The listed positions of drum d that fall inside the grid. */
  function ListedInGrid(source: map<DrumId, seq<Pos>>, d: DrumId, beats: int, subdivision: int): set<Pos>
  {
    set k | k in GridKeys(beats, subdivision) && Listed(source, d, k)
  }

  /** Export after materialisation recovers, for each roster drum, exactly its
      listed in-grid positions; roster drums with none are omitted. */
  lemma PresetRoundTrip(drums: seq<DrumId>, preset: Preset, isFill: bool)
    ensures var out := ConvertPatternToPresetFormat(CreatePatternFromPreset(drums, preset, isFill));
      && (forall d :: d in out <==>
            d in drums && ListedInGrid(VariantSource(preset, isFill), d, preset.beatsPerMeasure, preset.subdivision) != {})
      && (forall d, k :: d in out ==>
            (k in out[d] <==> k in ListedInGrid(VariantSource(preset, isFill), d, preset.beatsPerMeasure, preset.subdivision)))
  {
    var p := CreatePatternFromPreset(drums, preset, isFill);
    var out := ConvertPatternToPresetFormat(p);
    var src := VariantSource(preset, isFill);
    var B, S := preset.beatsPerMeasure, preset.subdivision;
    forall d | d in drums
      ensures (exists k :: k in p[d] && p[d][k].enabled) <==> ListedInGrid(src, d, B, S) != {}
    {
      if ListedInGrid(src, d, B, S) != {} {
        var k :| k in ListedInGrid(src, d, B, S);
        assert k in p[d] && p[d][k].enabled;
      }
    }
  }
}
